=== FILE: README.md ===
# Maritime narrative pipeline — a Dafny model

This project models the pure core of `json_to_claude.py`. That script turns a JSON document about a voyage into per-location narratives. It has four stages:

1. **Extraction** (`extract_maritime_data`). It walks the parsed document and groups string fields into location records `{name, weather, waves}`.
   - A field's category comes from a case-insensitive substring match of its key against three fixed keyword lists: waypoint, weather, wave, tried in that order.
   - A *primary pass* lets every object that has a name and at least one fact emit its own record.
   - The primary pass threads one shared Python list through the recursion. Every caller runs `locations.extend(result)`, so a non-emitting child that returns the shared, non-empty list makes that list absorb a copy of itself. The model keeps this doubling: `Classifier.Absorb`, `Classifier.ScalarItemDoubles`, `Extraction.FlatThenScalar`.
   - When the primary pass finds nothing, a *fallback flattener* runs. It classifies each string by its full dotted path and creates one record per waypoint value. All of those records share one weather list and one wave list.
2. **Prompt composition** (`format_maritime_prompt`). An optional prefix, then one `LOCATION: … WEATHER: … WAVES: …` section per record, all joined with spaces.
3. **Segmentation** (`parse_location_narratives` with `clean_narrative_line`). The model's reply is cut into narratives.
   - A line-oriented state machine opens a new section at every line that mentions a location name, and cleans the heading off that line.
   - If that yields nothing, a sentence-splitting fallback shares the reply out, `max(1, n // L)` sentences per location.
4. **Assembly** (`create_response_json`). Each narrative picks up the weather and wave facts of the first location with exactly its name. The result is wrapped in an envelope that holds the model name, a timestamp, a count and a status.

The model is functional. JSON values are a datatype whose objects keep their members in insertion order. The extractor's shared list is an explicit accumulator, and every stage is a pure function.

Modules, in pipeline order:
- `Wrappers`, `Documents`, `Text`, `Records`: basic types and Python string helpers.
- `Keywords`: the keyword lists and classification.
- `Classifier`: the primary pass.
- `Flattener`: the fallback flattener.
- `Extraction`: the whole extractor and worked documents.
- `Prompt`
- `Segmenter`
- `Assembler`
- `Scenarios`: concrete replies and responses for two locations off Cape Cod.

Behaviours of the code that a reader might not expect:
- **Status.** `create_response_json` stores whatever status its caller passes (json_to_claude.py:317-351). Within json_to_claude.py, only the failure envelope in `main` passes `"error"` (json_to_claude.py:413-421); the HTTP handlers in `api.py`, which are not part of this model, also pass it from their error branches.
- **Narrative count.** The line pass opens a section at every line that names a location (json_to_claude.py:211-229). A location named on two lines therefore gets two narratives, which can make more narratives than locations. See `Scenarios.RepeatReplyScenario`.
- **Chunk size.** The sentence fallback gives each location `max(1, n // L)` sentences (json_to_claude.py:249), never zero.
- **One-line replies.** A line that mentions two locations (`"A: x. B: y."`) opens only one section, for the first location in list order that the line mentions (json_to_claude.py:210-214). The worked reply therefore has one heading per line.
- **Flat records.** The flat object `{"waypoint": …, "wind_speed": …, "wave_height": …}` emits its record in the primary pass (json_to_claude.py:102-109), so the fallback, which runs only when the primary pass found nothing (json_to_claude.py:123), never sees it. See `Extraction.FlatObject`.

## Model

| member | source | states |
|---|---|---|
| Keywords.AnyKeyword | json_to_claude.py:72 | true exactly when some keyword of the list occurs in the lowered key |
| Keywords.Classify | json_to_claude.py:68-79 | waypoint iff a waypoint keyword occurs in the lowered key; weather iff no waypoint keyword and a weather keyword; wave iff neither earlier list matches and a wave keyword does; none iff no list matches |
| Keywords.WaypointByPrefix | json_to_claude.py:55 | a key that starts with a waypoint keyword, in either case, is a waypoint key |
| Keywords.MentionsExtend | json_to_claude.py:132-135 | lengthening a key on the right never loses a keyword match, so dotted paths keep their parent's category hits |
| Text.LowerAppend | json_to_claude.py:132-133 | lowering distributes over concatenation |
| Text.Strip | json_to_claude.py:70 | empty exactly when every character is whitespace; otherwise starts and ends with a non-space; always a contiguous slice of the input |
| Text.StripSurrounded | json_to_claude.py:70 | only whitespace is dropped: the stripped text is a slice of the input with nothing but whitespace before and after it |
| Text.StripIdempotent | json_to_claude.py:73 | stripping a stripped value changes nothing |
| Text.LStrip | json_to_claude.py:195 | drops exactly the longest all-whitespace prefix |
| Text.RStrip | json_to_claude.py:197 | drops exactly the longest all-whitespace suffix |
| Text.LStripChar | json_to_claude.py:195 | removes exactly the leading copies of the character: everything it drops is that character, and what is left does not start with it |
| Text.SplitThenJoin | json_to_claude.py:248 | joining the pieces of a split with the separator rebuilds the text |
| Text.JoinThenSplit | json_to_claude.py:200 | splitting a join of separator-free pieces gives the pieces back |
| Text.JoinContainsPart | json_to_claude.py:180 | every part occurs in the joined text |
| Text.RemoveBoldKeeps | json_to_claude.py:190 | text without asterisks is unchanged by removing `**` |
| Text.RemoveBoldPrefix | json_to_claude.py:190 | an asterisk-free prefix survives removing `**` unchanged, and the removal goes on in the rest |
| Text.BoldRemoved | json_to_claude.py:190 | a name wrapped in `**` markers comes back bare |
| Text.ContainsIff | json_to_claude.py:212 | `sub in s` holds exactly when `sub` occurs at some offset of `s` |
| Text.Decimal | json_to_claude.py:145 | an array index is written as a non-empty string of decimal digits |
| Classifier.Absorb | json_to_claude.py:92-94 | the caller's list after `extend`: unchanged when the child emitted (it returned `[]`); otherwise the shared list followed by a copy of itself; every record stays emittable |
| Classifier.VisitNode | json_to_claude.py:59-117 | the shared list only grows; records already there stay in place; every record stays emittable; only an object can emit |
| Classifier.StepMember | json_to_claude.py:67-100 | one member extends the shared list and keeps the object's name usable |
| Classifier.Primary | json_to_claude.py:103-109 | every record of the primary pass has a non-empty stripped name and at least one weather or wave fact |
| Classifier.StepFrame | json_to_claude.py:67-92 | one member changes the object's own facts by exactly its contribution: a string by its category; a weather-keyed object by its non-blank string children; else a wave-keyed one likewise; nothing else |
| Classifier.ScanFrame | json_to_claude.py:67-100 | after the member loop the object's name is its last waypoint member, and its facts are the members' contributions in member order |
| Classifier.EmitRule | json_to_claude.py:102-109 | an object emits iff it has a name and a fact, and then appends that record after whatever its members added |
| Classifier.StepShallow | json_to_claude.py:70-89 | a string member, a fact-keyed object or a scalar leaves the shared list alone |
| Classifier.ShallowObject | json_to_claude.py:80-109 | an object whose members are all shallow adds its own record or nothing |
| Classifier.ScalarItemDoubles | json_to_claude.py:111-117 | a scalar array item hands back the shared list, which the array then extends with itself |
| Classifier.ScalarItemsDouble | json_to_claude.py:111-117 | an array whose remaining items are all scalars doubles the shared list once per item |
| Classifier.DoubledLength | json_to_claude.py:111-117 | doubling `n` times multiplies the list's length by `2^n` |
| Classifier.ScalarArrayMember | json_to_claude.py:95-100 | a member holding an array of `n` scalars leaves the shared list doubled `n` times |
| Classifier.QuietObject | json_to_claude.py:61-117 | an object of shallow members that lacks a name or has no facts emits nothing and hands back the shared list unchanged |
| Classifier.NestedObjectDoubles | json_to_claude.py:90-94 | such a member whose object does not emit leaves the shared list followed by a copy of itself, with the parent's name and facts untouched |
| Flattener.FlattenNode | json_to_claude.py:128-145 | every gathered waypoint value is a non-empty stripped name |
| Flattener.FlattenFilesLeaves | json_to_claude.py:128-145 | the gathered lists are exactly the document's non-blank string leaves, in traversal order, each filed by the category of its full dotted path |
| Flattener.MergeAllFinds | json_to_claude.py:124-141 | appending every part onto the shared lists keeps exactly the entries of the parts |
| Flattener.LeafFinds | json_to_claude.py:131-140 | one leaf lands in exactly the list its path's category picks: a waypoint as its stripped value, a fact as `key: stripped value` with its own key |
| Flattener.FlattenFinds | json_to_claude.py:128-145 | a value is gathered as a waypoint (a weather fact, a wave fact) iff some string leaf's dotted path classifies so and the value is that leaf's entry |
| Flattener.StringMemberIsLeaf | json_to_claude.py:130-133 | a non-blank string member is a leaf at its dotted path |
| Flattener.NestedLeavesAreLeaves | json_to_claude.py:141-142 | the leaves below any other member, under the member's dotted path, are leaves of the object |
| Flattener.ItemLeavesAreLeaves | json_to_claude.py:143-145 | the leaves of an array item, under the path suffixed `[i]`, are leaves of the array |
| Flattener.NestedUnderWaypoint | json_to_claude.py:128-145 | a string nested inside a waypoint-keyed object is gathered as a waypoint, whatever its own key, and nothing else is gathered |
| Flattener.PathInheritsWaypoint | json_to_claude.py:132-135 | below a path that matches a waypoint keyword, every string classifies as a waypoint, whatever its own key |
| Extraction.ExtractMaritimeData | json_to_claude.py:119-157 | a non-empty primary result is returned as is; otherwise the fallback records, one per gathered waypoint in order, all with identical facts; every name is non-empty and stripped |
| Extraction.KeyWindSpeed | json_to_claude.py:55-56 | `wind_speed` is a weather key |
| Extraction.KeyWaveHeight | json_to_claude.py:55-57 | `wave_height` is a wave key, matching neither earlier list |
| Extraction.KeyWaypoint | json_to_claude.py:55 | `waypoint` is a waypoint key |
| Extraction.StringMember | json_to_claude.py:70-79 | a trimmed string member sets the name, adds `key: value` to weather, or to waves, by its key's category, and nothing else |
| Extraction.ThreeMembers | json_to_claude.py:67-79 | an object's name is its last naming member, and its facts are concatenated in member order |
| Extraction.StringObjectPrimary | json_to_claude.py:61-109 | an object of string members yields exactly its own record when it has a name and a fact, else nothing |
| Extraction.FlatObject | json_to_claude.py:50-157 | an object with a waypoint, a weather and a wave string yields exactly one record through the whole extractor |
| Extraction.FlatThenScalar | json_to_claude.py:111-117 | an array of such an object followed by any scalar yields that record twice |
| Extraction.RecordThenScalar | json_to_claude.py:93-117 | an emitting object followed by a scalar in one array leaves the record in the list twice |
| Extraction.NestedWaypointFallback | json_to_claude.py:119-157 | a document whose one string sits in a waypoint-keyed object gets nothing from the primary pass and one fallback record, named by the stripped string, with no facts |
| Prompt.Section | json_to_claude.py:169-178 | starts `LOCATION: name`; is exactly that iff there are no facts; otherwise exactly the tagged name, then the tagged space-joined weather facts when there are any, then the tagged space-joined wave facts when there are any, in that order, for each of the three non-empty combinations |
| Prompt.Compose | json_to_claude.py:160-180 | with no locations it is the prefix; a non-empty prefix starts it; otherwise the first location's tag starts it |
| Prompt.SectionInPrompt | json_to_claude.py:169-180 | every record's section occurs in the prompt |
| Prompt.ComposeSnoc | json_to_claude.py:169-180 | adding a record appends a space and its section; the first section of an unprefixed prompt stands alone |
| Prompt.ComposeSingle | json_to_claude.py:164-180 | the unprefixed prompt for one record is that record's section |
| Segmenter.FirstNamed | json_to_claude.py:210-214 | the first location in list order whose lowered name occurs in the lowered line; none if no name occurs |
| Segmenter.Heading | json_to_claude.py:209-216 | a line opens a section iff some location is named in it and the first such location has a non-empty name; the section's name is that first location's name |
| Segmenter.CutHeader | json_to_claude.py:195 | the text after a cut heading is no longer than before and starts with a non-space |
| Segmenter.CleanLine | json_to_claude.py:187-197 | the cleaned line is stripped |
| Segmenter.CleanHeading | json_to_claude.py:187-197 | cleaning `name: text` against its own name gives back `text` |
| Segmenter.CutColonSpace | json_to_claude.py:195 | the cut after a heading removes exactly a colon and a space |
| Segmenter.Step | json_to_claude.py:204-235 | one line keeps the state's invariant and never changes narratives already finished |
| Segmenter.Open | json_to_claude.py:216-231 | a heading line keeps the reading state well-formed (the open location is a listed, non-empty name; held lines are non-empty; finished narratives are valid), saves the open section when it has text, and makes its location current |
| Segmenter.Continue | json_to_claude.py:232-235 | a line that names no location keeps the reading state well-formed, the finished narratives and the current location |
| Segmenter.BodyStep | json_to_claude.py:232-235 | while a section is open, a trimmed line naming no location is appended to that section's text and nothing else changes |
| Segmenter.BoldHeadingThenBody | json_to_claude.py:187-243 | `**name**` followed by two body lines gives one narrative whose text is the two lines joined by a space |
| Segmenter.RunAppend | json_to_claude.py:204 | reading lines `a + b` is reading `a`, then `b` |
| Segmenter.Scan | json_to_claude.py:204-243 | every narrative names a location by a non-empty name, has non-empty text and no facts yet |
| Segmenter.Primary | json_to_claude.py:199-243 | the line pass over the stripped reply yields only such narratives |
| Segmenter.RunWithoutLocations | json_to_claude.py:246 | with no locations no line opens a section |
| Segmenter.LeadingLinesDropped | json_to_claude.py:204-235 | lines before the first line naming a location do not affect the result |
| Segmenter.BareHeadingLost | json_to_claude.py:218-231 | a heading line with nothing left after cleaning, followed by another heading, gives its location no narrative |
| Segmenter.StepHeading | json_to_claude.py:216-231 | a well-formed heading closes the open section and opens its location holding its cleaned text |
| Segmenter.HeadingsParse | json_to_claude.py:204-243 | a run of heading lines yields one narrative per line, in order |
| Segmenter.HeadingLine | json_to_claude.py:209-231 | `name: text` is a well-formed heading for its location when no earlier location is named in it |
| Segmenter.HeadingReplyParses | json_to_claude.py:199-243 | a reply of heading lines joined by newlines parses back into exactly those entries, in order, repeats included |
| Segmenter.JoinedLines | json_to_claude.py:200 | the lines of a newline join of stripped single-line texts are those texts |
| Segmenter.UnnamedReply | json_to_claude.py:204-243 | a one-line reply naming no location yields nothing from the line pass |
| Segmenter.Sentences | json_to_claude.py:248 | splitting on `.` always gives at least one piece |
| Segmenter.Chunk | json_to_claude.py:249 | `max(1, n // L)`: at least one, and the floor of `n / L` when `n >= L` |
| Segmenter.Window | json_to_claude.py:252-254 | Python's clamped slice `s[a:b]` |
| Segmenter.Close | json_to_claude.py:266 | ends with a full stop; text already ending in one is unchanged, otherwise exactly one full stop is added |
| Segmenter.FallbackRecord | json_to_claude.py:251-267 | a location gets a fallback narrative exactly when its window of sentences, joined with full stops and stripped, is not blank; the narrative belongs to that location, ends with a full stop and carries no facts |
| Segmenter.FallbackLocal | json_to_claude.py:252-254 | location `i`'s narrative depends only on sentences `i*k` up to `i*k+k` |
| Segmenter.Slots | json_to_claude.py:251-267 | the kept locations in strictly increasing list order |
| Segmenter.SlotsComplete | json_to_claude.py:251-267 | every kept location is among the slots |
| Segmenter.Fallback | json_to_claude.py:246-267 | at most one narrative per location, in list order, exactly the non-blank windows; each names a location and ends with a full stop |
| Segmenter.Segment | json_to_claude.py:245-269 | empty for no locations; the line pass when it finds anything; else the sentence fallback; every narrative names a location |
| Segmenter.TwoSentences | json_to_claude.py:246-267 | two sentences naming no location fall back to one sentence per location, each with its full stop |
| Assembler.FindByName | json_to_claude.py:332-333 | the first location whose name equals the narrative's exactly; none if there is none |
| Assembler.Enrich | json_to_claude.py:330-338 | location and text unchanged; facts from the first equally named location, each only when non-empty; unchanged if no location matches |
| Assembler.CreateResponse | json_to_claude.py:317-351 | count equals the number of narratives; locations and texts unchanged; enriched only when a dataset is given; model, status and timestamp as passed; error present iff non-empty |
| Assembler.EnrichIdempotent | json_to_claude.py:330-338 | enriching twice is enriching once |
| Assembler.CreateResponseIdempotent | json_to_claude.py:327-341 | rebuilding a response from its own narratives with the same dataset changes no narrative |
| Assembler.EnrichKeeps | json_to_claude.py:334-337 | weather or waves a narrative already had are never removed |
| Assembler.ErrorEnvelope | json_to_claude.py:413-421 | the failure envelope has no narratives, count 0, status `error`, and the message unless it is empty |
| Scenarios.BanksReplyScenario | json_to_claude.py:204-243 | `Cape Cod Bay: Calm seas.` / `Georges Bank: Rough seas.` gives one narrative each, headings cut |
| Scenarios.RepeatReplyScenario | json_to_claude.py:211-229 | naming Cape Cod Bay on two lines gives it two narratives, more than there are locations |
| Scenarios.ShortReplyScenario | json_to_claude.py:246-267 | `Calm. Rough.` is shared one sentence per location, each with its full stop |
| Scenarios.BanksResponseScenario | json_to_claude.py:327-351 | each narrative receives its own location's facts, count 2, status as passed, no error |
| Scenarios.FlatPromptScenario | json_to_claude.py:169-180 | the prompt for Cape Cod Bay alone is its tagged name, weather fact and wave fact |

## Left out

- Reading the input (`parse_json_input`, `fetch_json_from_url`, json_to_claude.py:15-47). This is file, stdin and HTTP I/O plus `json.loads`. The model starts from an already-parsed `Documents.Json`.
- `call_claude_api` (json_to_claude.py:272-314). It is a remote call. Its reply is an arbitrary input string.
- `main` (json_to_claude.py:354-430). It is argument parsing and output writing. Only its failure envelope is stated, as `Assembler.ErrorEnvelope`.
- The clock. `datetime.now().isoformat()` becomes the `timestamp` parameter.
- `input_data` in `create_response_json`. It is never read, so it is not a parameter.
- The path strings built for the primary pass (`parent_key`). They are computed and passed down but never read there.
- `api.py`. It is HTTP endpoints around the same calls; its error branches build the envelope with status `"error"` (api.py:74-78, api.py:113-126).
- The test fixture server and the stale test script.
- Unicode case folding and Python's full whitespace set. Lowering is ASCII-only. Whitespace is the ASCII subset of `str.isspace`.
- Numbers. They are carried as `real` and never inspected, because the source only tests whether a value is a string.
- Objects with duplicate keys. Python's `json.loads` keeps the last one. A `Documents.Json` object is taken as already deduplicated.
- In-place mutation of the narrative dicts in `create_response_json`. It is modelled as a pure map over the narratives.
- `maritime_data` given as an empty dict. Python treats it as false. The model's dataset is `None` or a `{"locations": …}` value, which is always true.
- Classifier.StepMember: its contract states only that the shared list grows and names stay usable. Its effect on the object's facts is `Classifier.StepFrame`. Its effect on the list is `Classifier.StepShallow` for strings, fact-keyed objects and scalars, `Classifier.NestedObjectDoubles` for other objects that do not emit, and `Classifier.ScalarArrayMember` for arrays of scalars. For an array holding objects or arrays, only `Classifier.VisitNode`'s growth and emittability are stated.
- Flattener.FlattenNode: its contract states only that gathered waypoints are usable names. What it gathers, and in which order, is `Flattener.FlattenFilesLeaves` and `Flattener.FlattenFinds`.
- Text.Strip: its contract does not say that what it drops is whitespace, because every user of `Strip` would carry that quantified fact. `Text.StripSurrounded` states it, for all inputs.
- Segmenter.CutHeader: its contract states only the length bound and the non-space start. The exact cut after a `name: ` heading is `Segmenter.CutColonSpace`.
- Segmenter.CleanLine: its contract states only that the result is stripped. The full cleaning of a well-formed heading line is `Segmenter.CleanHeading`.
- Segmenter.Sentences: its contract states only that there is at least one piece. Its relation to the reply is `Text.SplitThenJoin` and `Text.JoinThenSplit`.
- Segmenter.Step: its contract states only the invariant and that finished narratives are kept. What a heading line does is `Segmenter.Open` and `Segmenter.StepHeading`. What a line naming no location does while a section is open is `Segmenter.Continue` and `Segmenter.BodyStep`.

=== FILE: assembler.dfy ===
/** The response assembler (`create_response_json`, json_to_claude.py:317-351): each
    narrative picks up the weather and wave facts of its location, and the result is
    wrapped in an envelope with the model, a timestamp, a count and a status. */
module Assembler {
  import opened Wrappers
  import opened Text
  import opened Records

  /** The envelope. `error` is the optional `"error"` key; the clock reading that
      becomes `timestamp` is supplied by the caller. */
  datatype Response = Response(
    narratives: seq<Narrative>,
    model: string,
    timestamp: string,
    locationsCount: nat,
    status: string,
    error: Option<string>)

  /** The first location from index `i` on whose name equals `name` exactly. */
  function FindByName(locs: seq<LocationRecord>, name: string, i: nat): (r: Option<nat>)
    requires i <= |locs|
    ensures r.Some? ==> i <= r.value < |locs| && locs[r.value].name == name
    ensures r.Some? ==> forall j :: i <= j < r.value ==> locs[j].name != name
    ensures r.None? ==> forall j :: i <= j < |locs| ==> locs[j].name != name
    decreases |locs| - i
  {
    if i == |locs| then None
    else if locs[i].name == name then Some(i)
    else FindByName(locs, name, i + 1)
  }

  /** A narrative with the facts of its location attached: the weather list when that
      location has any weather, the wave list when it has any waves. A narrative whose
      location is not in the list, or whose location has neither, is left as it was. */
  function Enrich(locs: seq<LocationRecord>, n: Narrative): (m: Narrative)
    ensures m.location == n.location && m.narrative == n.narrative
    ensures FindByName(locs, n.location, 0).None? ==> m == n
    ensures forall k :: 0 <= k < |locs| && locs[k].name == n.location
                        && (forall j :: 0 <= j < k ==> locs[j].name != n.location) ==>
              && m.weather == (if locs[k].weather != [] then Some(locs[k].weather) else n.weather)
              && m.waves == (if locs[k].waves != [] then Some(locs[k].waves) else n.waves)
  {
    match FindByName(locs, n.location, 0)
    case None => n
    case Some(k) =>
      var l := locs[k];
      n.(weather := if l.weather != [] then Some(l.weather) else n.weather,
         waves := if l.waves != [] then Some(l.waves) else n.waves)
  }

  /** Every narrative enriched, in order. */
  function EnrichAll(locs: seq<LocationRecord>, ns: seq<Narrative>): (r: seq<Narrative>)
    ensures |r| == |ns|
    ensures forall j :: 0 <= j < |ns| ==> r[j] == Enrich(locs, ns[j])
  {
    seq(|ns|, j requires 0 <= j < |ns| => Enrich(locs, ns[j]))
  }

  /** `create_response_json`. The narratives are enriched only when a dataset is given;
      the status is whatever the caller passes; the error key is present only for a
      non-empty message. */
  function CreateResponse(narratives: seq<Narrative>, model: string, dataset: Option<Dataset>,
                          status: string, error: Option<string>, timestamp: string): (r: Response)
    ensures r.locationsCount == |narratives| == |r.narratives|
    ensures forall j :: 0 <= j < |narratives| ==>
              r.narratives[j].location == narratives[j].location
              && r.narratives[j].narrative == narratives[j].narrative
    ensures dataset.None? ==> r.narratives == narratives
    ensures dataset.Some? ==> forall j :: 0 <= j < |narratives| ==>
              r.narratives[j] == Enrich(dataset.value.locations, narratives[j])
    ensures r.model == model && r.status == status && r.timestamp == timestamp
    ensures r.error.Some? <==> error.Some? && error.value != ""
    ensures r.error.Some? ==> r.error == error
  {
    var ns := if dataset.Some? && narratives != [] then EnrichAll(dataset.value.locations, narratives)
              else narratives;
    var e := if error.Some? && error.value != "" then error else None;
    Response(ns, model, timestamp, |narratives|, status, e)
  }

  /** The narrative as enriched from location `k`, the first one of its name. */
  lemma EnrichFirst(locs: seq<LocationRecord>, n: Narrative, k: nat)
    requires k < |locs| && locs[k].name == n.location
    requires forall j :: 0 <= j < k ==> locs[j].name != n.location
    ensures Enrich(locs, n)
         == n.(weather := if locs[k].weather != [] then Some(locs[k].weather) else n.weather,
               waves := if locs[k].waves != [] then Some(locs[k].waves) else n.waves)
  {
  }

  /** Enriching an enriched narrative changes nothing more. */
  lemma EnrichIdempotent(locs: seq<LocationRecord>, n: Narrative)
    ensures Enrich(locs, Enrich(locs, n)) == Enrich(locs, n)
  {
  }

  /** Assembling a response from the narratives of an earlier one, with the same
      dataset, gives back the same narratives. */
  lemma CreateResponseIdempotent(narratives: seq<Narrative>, model: string, dataset: Option<Dataset>,
                                 status: string, error: Option<string>, timestamp: string)
    ensures var r := CreateResponse(narratives, model, dataset, status, error, timestamp);
      CreateResponse(r.narratives, model, dataset, status, error, timestamp).narratives == r.narratives
  {
    var r := CreateResponse(narratives, model, dataset, status, error, timestamp);
    if dataset.Some? {
      var locs := dataset.value.locations;
      forall j | 0 <= j < |narratives| ensures Enrich(locs, r.narratives[j]) == r.narratives[j] {
        EnrichIdempotent(locs, narratives[j]);
      }
    }
  }

  /** Attaching facts never removes any: a narrative that had weather or waves still has. */
  lemma EnrichKeeps(locs: seq<LocationRecord>, n: Narrative)
    ensures n.weather.Some? ==> Enrich(locs, n).weather.Some?
    ensures n.waves.Some? ==> Enrich(locs, n).waves.Some?
  {
  }

  /** The envelope the program writes when anything fails (json_to_claude.py:413-421):
      no narratives, status `"error"`, and the message under `"error"` unless it is
      empty. */
  lemma ErrorEnvelope(model: string, message: string, timestamp: string)
    ensures var r := CreateResponse([], model, None, "error", Some(message), timestamp);
      && r.narratives == [] && r.locationsCount == 0 && r.status == "error"
      && (r.error == if message != "" then Some(message) else None)
  {
  }
}

=== FILE: classifier.dfy ===
/** The primary pass of the extractor (`extract_location_data`, json_to_claude.py:59-117).

    The source threads one Python list, `locations`, through every recursive call and
    every non-emitting call returns that very list; its caller then runs
    `locations.extend(result)` whenever the result is non-empty, which appends the
    accumulator to itself. The model threads the accumulator explicitly and keeps
    that doubling (`Absorb`): it is observable in the output. */
module Classifier {
  import opened Wrappers
  import opened Text
  import opened Documents
  import opened Keywords
  import opened Records

  /** Per-object state: the last waypoint value seen and the facts collected so far
      (`location_name`, `weather_data`, `wave_data`). */
  datatype Frame = Frame(name: Option<string>, weather: seq<string>, waves: seq<string>)

  const EmptyFrame: Frame := Frame(None, [], [])

  /** Result of visiting one value: the shared accumulator afterwards, and whether
      the value was an object that emitted its own record (the source then returns
      `[]`, so its caller extends nothing). */
  datatype Visit = Visit(acc: seq<LocationRecord>, emitted: bool)

  /** The accumulator and the object's frame after scanning some of its members. */
  datatype Scan = Scan(acc: seq<LocationRecord>, frame: Frame)

  predicate FrameOk(f: Frame) {
    f.name.Some? ==> IsName(f.name.value)
  }

  predicate AllEmittable(acc: seq<LocationRecord>) {
    forall r | r in acc :: Emittable(r)
  }

  /** A fact line `"key: value"` with the value stripped. */
  function Fact(key: string, value: string): string {
    key + ": " + Strip(value)
  }

  /** The non-blank string children of a weather- or wave-named object, as facts
      under the child's own key; other children are skipped, never descended into. */
  function ChildFacts(fields: seq<Member>): seq<string>
    decreases |fields|
  {
    if |fields| == 0 then []
    else
      var here := match fields[0].value
        case JString(s) => if Strip(s) != "" then [Fact(fields[0].key, s)] else []
        case _ => [];
      here + ChildFacts(fields[1..])
  }

  /** What the caller does with a child's result: nothing if the child emitted
      (it returned `[]`) or the list is empty, otherwise `locations.extend(locations)`. */
  function Absorb(v: Visit): (r: seq<LocationRecord>)
    ensures v.acc <= r
    ensures AllEmittable(v.acc) ==> AllEmittable(r)
    ensures v.emitted ==> r == v.acc
    ensures !v.emitted ==> r == v.acc + v.acc
  {
    if v.emitted || v.acc == [] then v.acc else v.acc + v.acc
  }

  /** The effect of one non-blank string member on the object's frame. */
  function TakeString(f: Frame, key: string, value: string): (r: Frame)
    requires Strip(value) != ""
    ensures FrameOk(f) ==> FrameOk(r)
  {
    StripIdempotent(value);
    match Classify(key)
    case Some(Waypoint) => f.(name := Some(Strip(value)))
    case Some(Weather) => f.(weather := f.weather + [Fact(key, value)])
    case Some(Wave) => f.(waves := f.waves + [Fact(key, value)])
    case None => f
  }

  /** Visit any value with the accumulator `acc`. Only objects can emit; an array
      visits its items; every other value leaves the accumulator alone. */
  function VisitNode(v: Json, acc: seq<LocationRecord>): (r: Visit)
    ensures acc <= r.acc
    ensures AllEmittable(acc) ==> AllEmittable(r.acc)
    ensures r.emitted ==> v.JObject?
    decreases v, 2
  {
    match v
    case JObject(fields) =>
      var s := ScanFields(v, 0, EmptyFrame, acc);
      if s.frame.name.Some? && (s.frame.weather != [] || s.frame.waves != []) then
        Visit(s.acc + [LocationRecord(s.frame.name.value, s.frame.weather, s.frame.waves)], true)
      else
        Visit(s.acc, false)
    case JArray(_) => Visit(VisitItems(v, 0, acc), false)
    case _ => Visit(acc, false)
  }

  /** One member of object `obj`: a non-blank string updates the frame, a weather-
      or wave-named object adds its children as facts, any other object and every
      array are visited for records of their own; other values are ignored. */
  function StepMember(obj: Json, i: nat, frame: Frame, acc: seq<LocationRecord>): (r: Scan)
    requires obj.JObject? && i < |obj.fields|
    ensures acc <= r.acc
    ensures AllEmittable(acc) ==> AllEmittable(r.acc)
    ensures FrameOk(frame) ==> FrameOk(r.frame)
    decreases obj, 1, |obj.fields| - i, 0
  {
    var key := obj.fields[i].key;
    var value := obj.fields[i].value;
    assert obj.fields[i] in obj.fields;
    match value
    case JString(s) =>
      if Strip(s) != "" then Scan(acc, TakeString(frame, key, s)) else Scan(acc, frame)
    case JObject(sub) =>
      if IsWeatherKey(key) then Scan(acc, frame.(weather := frame.weather + ChildFacts(sub)))
      else if IsWaveKey(key) then Scan(acc, frame.(waves := frame.waves + ChildFacts(sub)))
      else Scan(Absorb(VisitNode(value, acc)), frame)
    case JArray(_) => Scan(VisitItems(value, 0, acc), frame)
    case _ => Scan(acc, frame)
  }

  /** The members of object `obj` from index `i` on, in order. */
  function ScanFields(obj: Json, i: nat, frame: Frame, acc: seq<LocationRecord>): (r: Scan)
    requires obj.JObject? && i <= |obj.fields|
    ensures acc <= r.acc
    ensures AllEmittable(acc) ==> AllEmittable(r.acc)
    ensures FrameOk(frame) ==> FrameOk(r.frame)
    decreases obj, 1, |obj.fields| - i, 1
  {
    if i == |obj.fields| then Scan(acc, frame)
    else
      var s := StepMember(obj, i, frame, acc);
      ScanFields(obj, i + 1, s.frame, s.acc)
  }

  /** The items of array `arr` from index `i` on, each visited as its own node. */
  function VisitItems(arr: Json, i: nat, acc: seq<LocationRecord>): (r: seq<LocationRecord>)
    requires arr.JArray? && i <= |arr.items|
    ensures acc <= r
    ensures AllEmittable(acc) ==> AllEmittable(r)
    decreases arr, 1, |arr.items| - i
  {
    if i == |arr.items| then acc
    else
      assert arr.items[i] in arr.items;
      VisitItems(arr, i + 1, Absorb(VisitNode(arr.items[i], acc)))
  }

  /** The records the primary pass leaves in `locations` for a whole document. */
  function Primary(doc: Json): (r: seq<LocationRecord>)
    ensures forall i :: 0 <= i < |r| ==> Emittable(r[i])
  {
    VisitNode(doc, []).acc
  }

  // ---------------------------------------------------------------------------
  // A member-by-member reference for what an object collects for itself.

  /** The name a member sets: the stripped value of a non-blank waypoint string. */
  function MemberName(m: Member): Option<string> {
    match m.value
    case JString(s) => if Strip(s) != "" && Classify(m.key) == Some(Waypoint) then Some(Strip(s)) else None
    case _ => None
  }

  /** The weather facts a member contributes to its own object. */
  function MemberWeather(m: Member): seq<string> {
    match m.value
    case JString(s) => if Strip(s) != "" && Classify(m.key) == Some(Weather) then [Fact(m.key, s)] else []
    case JObject(sub) => if IsWeatherKey(m.key) then ChildFacts(sub) else []
    case _ => []
  }

  /** The wave facts a member contributes to its own object; an object-valued
      member whose key is also a weather key went to the weather facts instead. */
  function MemberWaves(m: Member): seq<string> {
    match m.value
    case JString(s) => if Strip(s) != "" && Classify(m.key) == Some(Wave) then [Fact(m.key, s)] else []
    case JObject(sub) => if !IsWeatherKey(m.key) && IsWaveKey(m.key) then ChildFacts(sub) else []
    case _ => []
  }

  /** The name of the LAST member that sets one, if any. */
  function NodeName(fields: seq<Member>): Option<string>
    decreases |fields|
  {
    if |fields| == 0 then None
    else
      var later := NodeName(fields[1..]);
      if later.Some? then later else MemberName(fields[0])
  }

  function NodeWeather(fields: seq<Member>): seq<string>
    decreases |fields|
  {
    if |fields| == 0 then [] else MemberWeather(fields[0]) + NodeWeather(fields[1..])
  }

  function NodeWaves(fields: seq<Member>): seq<string>
    decreases |fields|
  {
    if |fields| == 0 then [] else MemberWaves(fields[0]) + NodeWaves(fields[1..])
  }

  /** One member changes the frame by exactly its own contribution. */
  lemma StepFrame(obj: Json, i: nat, frame: Frame, acc: seq<LocationRecord>)
    requires obj.JObject? && i < |obj.fields|
    ensures var m := obj.fields[i];
      StepMember(obj, i, frame, acc).frame == Frame(
        if MemberName(m).Some? then MemberName(m) else frame.name,
        frame.weather + MemberWeather(m),
        frame.waves + MemberWaves(m))
  {
    var m := obj.fields[i];
    AppendEmpty(frame.weather);
    AppendEmpty(frame.waves);
    match m.value
    case JString(s) =>
      if Strip(s) != "" {
        assert StepMember(obj, i, frame, acc).frame == TakeString(frame, m.key, s);
        match Classify(m.key) {
          case Some(Waypoint) =>
          case Some(Weather) =>
          case Some(Wave) =>
          case None =>
        }
      }
    case JObject(sub) =>
      if IsWeatherKey(m.key) {
        assert MemberWaves(m) == [];
      } else if IsWaveKey(m.key) {
        assert MemberWeather(m) == [];
      } else {
        assert MemberWeather(m) == [] && MemberWaves(m) == [];
      }
    case JArray(_) =>
    case _ =>
  }

  /** The frame built by the left-to-right scan is the member-by-member reference:
      the last waypoint wins, and facts are the members' contributions in order. */
  lemma {:induction false} ScanFrame(obj: Json, i: nat, frame: Frame, acc: seq<LocationRecord>)
    requires obj.JObject? && i <= |obj.fields|
    ensures ScanFields(obj, i, frame, acc).frame == Frame(
      if NodeName(obj.fields[i..]).Some? then NodeName(obj.fields[i..]) else frame.name,
      frame.weather + NodeWeather(obj.fields[i..]),
      frame.waves + NodeWaves(obj.fields[i..]))
    decreases |obj.fields| - i
  {
    var fs := obj.fields;
    if i < |fs| {
      var s := StepMember(obj, i, frame, acc);
      var m := fs[i];
      assert ScanFields(obj, i, frame, acc) == ScanFields(obj, i + 1, s.frame, s.acc);
      StepFrame(obj, i, frame, acc);
      ScanFrame(obj, i + 1, s.frame, s.acc);
      assert fs[i..][0] == m;
      assert fs[i..][1..] == fs[i + 1..];
      assert NodeName(fs[i..]) ==
        if NodeName(fs[i + 1..]).Some? then NodeName(fs[i + 1..]) else MemberName(m);
      assert NodeWeather(fs[i..]) == MemberWeather(m) + NodeWeather(fs[i + 1..]);
      assert NodeWaves(fs[i..]) == MemberWaves(m) + NodeWaves(fs[i + 1..]);
      AppendAssoc(frame.weather, MemberWeather(m), NodeWeather(fs[i + 1..]));
      AppendAssoc(frame.waves, MemberWaves(m), NodeWaves(fs[i + 1..]));
    } else {
      assert fs[i..] == [];
    }
  }

  /** The emit rule: an object emits exactly when it names a location (its last
      waypoint member) and collected at least one fact; the record it appends, after
      whatever its members added, is that name with the object's own facts. */
  lemma EmitRule(fields: seq<Member>, acc: seq<LocationRecord>)
    ensures VisitNode(JObject(fields), acc).emitted <==>
      NodeName(fields).Some? && (NodeWeather(fields) != [] || NodeWaves(fields) != [])
    ensures var before := ScanFields(JObject(fields), 0, EmptyFrame, acc).acc;
      VisitNode(JObject(fields), acc).acc ==
        if VisitNode(JObject(fields), acc).emitted then
          before + [LocationRecord(NodeName(fields).value, NodeWeather(fields), NodeWaves(fields))]
        else before
  {
    var obj := JObject(fields);
    ScanFrame(obj, 0, EmptyFrame, acc);
    assert obj.fields[0..] == fields;
    AppendEmpty(NodeWeather(fields));
    AppendEmpty(NodeWaves(fields));
    assert ScanFields(obj, 0, EmptyFrame, acc).frame == Frame(NodeName(fields), NodeWeather(fields), NodeWaves(fields));
  }

  /** A member the scan does not descend into: a scalar, or an object whose key is a
      weather or wave key (its children are read as facts, not visited). */
  predicate Shallow(m: Member) {
    match m.value
    case JArray(_) => false
    case JObject(_) => IsWeatherKey(m.key) || IsWaveKey(m.key)
    case _ => true
  }

  /** A shallow member leaves the accumulator as it was. */
  lemma StepShallow(obj: Json, i: nat, frame: Frame, acc: seq<LocationRecord>)
    requires obj.JObject? && i < |obj.fields|
    requires Shallow(obj.fields[i])
    ensures StepMember(obj, i, frame, acc).acc == acc
  {
  }

  /** Scanning shallow members never touches the accumulator. */
  lemma {:induction false} ShallowScanKeepsAcc(obj: Json, i: nat, frame: Frame, acc: seq<LocationRecord>)
    requires obj.JObject? && i <= |obj.fields|
    requires forall j :: i <= j < |obj.fields| ==> Shallow(obj.fields[j])
    ensures ScanFields(obj, i, frame, acc).acc == acc
    decreases |obj.fields| - i
  {
    if i < |obj.fields| {
      var s := StepMember(obj, i, frame, acc);
      StepShallow(obj, i, frame, acc);
      assert s.acc == acc;
      ShallowScanKeepsAcc(obj, i + 1, s.frame, acc);
      assert ScanFields(obj, i, frame, acc) == ScanFields(obj, i + 1, s.frame, acc);
    }
  }

  /** An object all of whose members are shallow adds at most its own record: the
      weather- and wave-named children are read for facts and never recursed into. */
  lemma ShallowObject(fields: seq<Member>, acc: seq<LocationRecord>)
    requires forall j :: 0 <= j < |fields| ==> Shallow(fields[j])
    ensures VisitNode(JObject(fields), acc).acc ==
      if NodeName(fields).Some? && (NodeWeather(fields) != [] || NodeWaves(fields) != []) then
        acc + [LocationRecord(NodeName(fields).value, NodeWeather(fields), NodeWaves(fields))]
      else acc
  {
    ShallowScanKeepsAcc(JObject(fields), 0, EmptyFrame, acc);
    EmitRule(fields, acc);
  }

  /** The quirk: visiting a scalar array item hands the shared list back to the
      caller, which extends the list with itself. */
  lemma ScalarItemDoubles(x: Json, acc: seq<LocationRecord>)
    requires IsScalar(x)
    ensures VisitItems(JArray([x]), 0, acc) == acc + acc
  {
    assert JArray([x]).items[0] == x;
  }

  /** The list after `n` rounds of `locations.extend(locations)`. */
  function Doubled(acc: seq<LocationRecord>, n: nat): seq<LocationRecord>
    decreases n
  {
    if n == 0 then acc else Doubled(acc + acc, n - 1)
  }

  /** `n` doublings leave `2^n` copies: the list grows exponentially in the number of
      scalar items visited after a record was emitted. */
  lemma {:induction false} DoubledLength(acc: seq<LocationRecord>, n: nat)
    ensures |Doubled(acc, n)| == |acc| * Pow2(n)
    decreases n
  {
    if n > 0 {
      DoubledLength(acc + acc, n - 1);
      assert |acc + acc| * Pow2(n - 1) == |acc| * (2 * Pow2(n - 1));
    }
  }

  function Pow2(n: nat): nat {
    if n == 0 then 1 else 2 * Pow2(n - 1)
  }

  /** Every scalar item of an array doubles the shared list once more: an array of
      `n` scalars leaves `2^n` copies of what was there. */
  lemma {:induction false} ScalarItemsDouble(arr: Json, i: nat, acc: seq<LocationRecord>)
    requires arr.JArray? && i <= |arr.items|
    requires ScalarFrom(arr.items, i)
    ensures VisitItems(arr, i, acc) == Doubled(acc, |arr.items| - i)
    decreases |arr.items| - i
  {
    if i < |arr.items| {
      ScalarItemsDouble(arr, i + 1, acc + acc);
      ScalarItemsStep(arr, i, acc);
    }
  }

  lemma ScalarItemsStep(arr: Json, i: nat, acc: seq<LocationRecord>)
    requires arr.JArray? && i < |arr.items| && IsScalar(arr.items[i])
    requires VisitItems(arr, i + 1, acc + acc) == Doubled(acc + acc, |arr.items| - (i + 1))
    ensures VisitItems(arr, i, acc) == Doubled(acc, |arr.items| - i)
  {
    ScalarItemStep(arr, i, acc);
    DoubledStep(acc, |arr.items| - i);
  }

  /** Every item from position `i` on is a scalar. */
  predicate ScalarFrom(items: seq<Json>, i: nat)
    decreases |items| - i
  {
    i >= |items| || (IsScalar(items[i]) && ScalarFrom(items, i + 1))
  }

  lemma {:induction false} AllScalar(items: seq<Json>, i: nat)
    requires forall j :: i <= j < |items| ==> IsScalar(items[j])
    ensures ScalarFrom(items, i)
    decreases |items| - i
  {
    if i < |items| {
      AllScalar(items, i + 1);
    }
  }

  lemma DoubledStep(acc: seq<LocationRecord>, n: nat)
    requires n > 0
    ensures Doubled(acc, n) == Doubled(acc + acc, n - 1)
  {
  }

  lemma ScalarItemStep(arr: Json, i: nat, acc: seq<LocationRecord>)
    requires arr.JArray? && i < |arr.items| && IsScalar(arr.items[i])
    ensures VisitItems(arr, i, acc) == VisitItems(arr, i + 1, acc + acc)
  {
    assert VisitNode(arr.items[i], acc) == Visit(acc, false);
  }

  /** An array member whose items are all scalars multiplies the shared list the same
      way (the member loop's `extend` at json_to_claude.py:99-100). */
  lemma ScalarArrayMember(obj: Json, i: nat, frame: Frame, acc: seq<LocationRecord>)
    requires obj.JObject? && i < |obj.fields| && obj.fields[i].value.JArray?
    requires forall j :: 0 <= j < |obj.fields[i].value.items| ==> IsScalar(obj.fields[i].value.items[j])
    ensures StepMember(obj, i, frame, acc).acc == Doubled(acc, |obj.fields[i].value.items|)
  {
    var arr := obj.fields[i].value;
    assert StepMember(obj, i, frame, acc).acc == VisitItems(arr, 0, acc);
    AllScalar(arr.items, 0);
    ScalarItemsDouble(arr, 0, acc);
  }

  /** A nested object under a key that is neither a weather nor a wave key, which
      holds only shallow members and emits nothing (a `coordinates` object of numbers,
      say), hands the shared list back, and the member's `extend` doubles it. */
  lemma NestedObjectDoubles(obj: Json, i: nat, frame: Frame, acc: seq<LocationRecord>)
    requires obj.JObject? && i < |obj.fields| && obj.fields[i].value.JObject?
    requires !IsWeatherKey(obj.fields[i].key) && !IsWaveKey(obj.fields[i].key)
    requires var sub := obj.fields[i].value.fields;
      && (forall j :: 0 <= j < |sub| ==> Shallow(sub[j]))
      && (NodeName(sub).None? || (NodeWeather(sub) == [] && NodeWaves(sub) == []))
    ensures StepMember(obj, i, frame, acc) == Scan(acc + acc, frame)
  {
    var sub := obj.fields[i].value.fields;
    NestedObjectStep(obj, i, frame, acc);
    QuietObject(sub, acc);
  }

  lemma NestedObjectStep(obj: Json, i: nat, frame: Frame, acc: seq<LocationRecord>)
    requires obj.JObject? && i < |obj.fields| && obj.fields[i].value.JObject?
    requires !IsWeatherKey(obj.fields[i].key) && !IsWaveKey(obj.fields[i].key)
    ensures StepMember(obj, i, frame, acc) == Scan(Absorb(VisitNode(obj.fields[i].value, acc)), frame)
  {
    var value := obj.fields[i].value;
    assert value == JObject(value.fields);
  }

  lemma QuietObject(sub: seq<Member>, acc: seq<LocationRecord>)
    requires forall j :: 0 <= j < |sub| ==> Shallow(sub[j])
    requires NodeName(sub).None? || (NodeWeather(sub) == [] && NodeWaves(sub) == [])
    ensures VisitNode(JObject(sub), acc) == Visit(acc, false)
  {
    ShallowObject(sub, acc);
    EmitRule(sub, acc);
  }
}

=== FILE: documents.dfy ===
/** An already-parsed JSON document, as Python's `json.loads` hands it to the
    extractor: `null`, booleans, numbers, strings, arrays, and objects whose
    members keep their insertion order (Python dicts are ordered). */
module Documents {

  datatype Json =
    | JNull
    | JBool(b: bool)
    | JNumber(n: real)
    | JString(s: string)
    | JArray(items: seq<Json>)
    | JObject(fields: seq<Member>)

  /** One `key: value` pair of an object, in document order. */
  datatype Member = Member(key: string, value: Json)

  /** Neither an object nor an array: the values the traversals never descend into. */
  predicate IsScalar(v: Json) {
    !v.JObject? && !v.JArray?
  }
}

=== FILE: extraction.dfy ===
/** `extract_maritime_data` (json_to_claude.py:50-157): the primary pass, and the
    fallback only when the primary pass found nothing. */
module Extraction {
  import opened Wrappers
  import opened Text
  import opened Documents
  import opened Keywords
  import opened Records
  import opened Classifier
  import opened Flattener

  function ExtractMaritimeData(doc: Json): (d: Dataset)
    ensures Primary(doc) != [] ==> d.locations == Primary(doc)
    ensures Primary(doc) != [] ==> forall i :: 0 <= i < |d.locations| ==> Emittable(d.locations[i])
    ensures Primary(doc) == [] ==> d.locations == Fallback(doc)
    ensures Primary(doc) == [] ==> |d.locations| == |FlattenNode(doc, "").waypoints|
    ensures Primary(doc) == [] ==> forall i, j :: 0 <= i < |d.locations| && 0 <= j < |d.locations| ==>
      d.locations[i].weather == d.locations[j].weather && d.locations[i].waves == d.locations[j].waves
    ensures forall i :: 0 <= i < |d.locations| ==> IsName(d.locations[i].name)
  {
    var primary := Primary(doc);
    if primary != [] then Dataset(primary) else Dataset(Fallback(doc))
  }

  // ---------------------------------------------------------------------------
  // Classification of the literal keys used by the scenarios below.

  // Each literal is handled in small steps: its lowered form, the lists it
  // misses (one probe character per keyword, absent from the key), the list it hits.

  lemma KeyName()
    ensures Classify("name") == Some(Waypoint)
  {
    LowerKeeps("name");
    WaypointByPrefix("name", 7);
  }

  lemma KeyWaypoint()
    ensures Classify("waypoint") == Some(Waypoint)
  {
    LowerKeeps("waypoint");
    WaypointByPrefix("waypoint", 0);
  }

  lemma WindLower() ensures Lower("wind") == "wind" { LowerKeeps("wind"); }
  lemma WindHits() ensures AnyKeyword("wind", WeatherKeywords) {
    PrefixContains("wind", "wind");
    assert Contains("wind", WeatherKeywords[1]);
  }

  lemma KeyWind()
    ensures Classify("wind") == Some(Weather)
  {
    WindLower();
    // One letter per waypoint keyword that "wind" lacks: w[a]ypoint, [b]uoy, d[e]stination,
    // [p]ort, [h]arbor, [l]ocation, pl[a]ce, n[a]me, [p]oint.
    NoKeyword("wind", WaypointKeywords, "abephlaap");
    WindHits();
  }

  lemma WindSpeedLower() ensures Lower("wind_speed") == "wind_speed" { LowerKeeps("wind_speed"); }
  lemma WindSpeedHits() ensures AnyKeyword("wind_speed", WeatherKeywords) {
    PrefixContains("wind_speed", "wind");
    assert Contains("wind_speed", WeatherKeywords[1]);
  }

  lemma KeyWindSpeed()
    ensures Classify("wind_speed") == Some(Weather)
  {
    WindSpeedLower();
    // w[a]ypoint, [b]uoy, des[t]ination, p[o]rt, [h]arbor, [l]ocation, p[l]ace, n[a]me, p[o]int.
    NoKeyword("wind_speed", WaypointKeywords, "abtohllao");
    WindSpeedHits();
  }

  lemma WaveHeightLower() ensures Lower("wave_height") == "wave_height" { LowerKeeps("wave_height"); }
  lemma WaveHeightMissesWeather() ensures !AnyKeyword("wave_height", WeatherKeywords) {
    // weathe[r], wi[n]d, te[m]perature, te[m]p, p[r]essure, hu[m]idity, vi[s]ibility, [c]ondition, [f]orecast.
    NoKeyword("wave_height", WeatherKeywords, "rnmmrmscf");
  }
  lemma WaveHeightHits() ensures AnyKeyword("wave_height", WaveKeywords) {
    PrefixContains("wave_height", "wave");
    assert Contains("wave_height", WaveKeywords[0]);
  }

  lemma KeyWaveHeight()
    ensures Classify("wave_height") == Some(Wave)
  {
    WaveHeightLower();
    // wa[y]point, [b]uoy, [d]estination, p[o]rt, ha[r]bor, lo[c]ation, pla[c]e, [n]ame, p[o]int.
    NoKeyword("wave_height", WaypointKeywords, "ybdorccno");
    WaveHeightMissesWeather();
    WaveHeightHits();
  }

  // ---------------------------------------------------------------------------
  // Scenarios.

  /** What a member with a trimmed string value contributes to its object. */
  lemma StringMember(key: string, s: string, c: Option<Category>)
    requires Trimmed(s) && Classify(key) == c
    ensures MemberName(Member(key, JString(s))) == if c == Some(Waypoint) then Some(s) else None
    ensures MemberWeather(Member(key, JString(s))) == if c == Some(Weather) then [key + ": " + s] else []
    ensures MemberWaves(Member(key, JString(s))) == if c == Some(Wave) then [key + ": " + s] else []
  {
    StringName(key, s, c);
    StringWeather(key, s, c);
    StringWaves(key, s, c);
  }

  lemma StringName(key: string, s: string, c: Option<Category>)
    requires Trimmed(s) && Classify(key) == c
    ensures MemberName(Member(key, JString(s))) == if c == Some(Waypoint) then Some(s) else None
  {
    StripKeeps(s);
    assert Strip(s) != "";
  }

  lemma StringWeather(key: string, s: string, c: Option<Category>)
    requires Trimmed(s) && Classify(key) == c
    ensures MemberWeather(Member(key, JString(s))) == if c == Some(Weather) then [key + ": " + s] else []
  {
    if c == Some(Weather) {
      StringWeatherHit(key, s);
    } else {
      StringWeatherMiss(key, s);
    }
  }

  lemma StringWeatherHit(key: string, s: string)
    requires Trimmed(s) && Classify(key) == Some(Weather)
    ensures MemberWeather(Member(key, JString(s))) == [key + ": " + s]
  {
    StripKeeps(s);
    StringWeatherFact(key, s);
    assert Fact(key, s) == key + ": " + s;
  }

  lemma StringWeatherFact(key: string, s: string)
    requires Strip(s) != "" && Classify(key) == Some(Weather)
    ensures MemberWeather(Member(key, JString(s))) == [Fact(key, s)]
  {
  }

  lemma StringWeatherMiss(key: string, s: string)
    requires Classify(key) != Some(Weather)
    ensures MemberWeather(Member(key, JString(s))) == []
  {
  }

  lemma StringWaves(key: string, s: string, c: Option<Category>)
    requires Trimmed(s) && Classify(key) == c
    ensures MemberWaves(Member(key, JString(s))) == if c == Some(Wave) then [key + ": " + s] else []
  {
    if c == Some(Wave) {
      StringWavesHit(key, s);
    } else {
      StringWavesMiss(key, s);
    }
  }

  lemma StringWavesHit(key: string, s: string)
    requires Trimmed(s) && Classify(key) == Some(Wave)
    ensures MemberWaves(Member(key, JString(s))) == [key + ": " + s]
  {
    StripKeeps(s);
    StringWavesFact(key, s);
    assert Fact(key, s) == key + ": " + s;
  }

  lemma StringWavesFact(key: string, s: string)
    requires Strip(s) != "" && Classify(key) == Some(Wave)
    ensures MemberWaves(Member(key, JString(s))) == [Fact(key, s)]
  {
  }

  lemma StringWavesMiss(key: string, s: string)
    requires Classify(key) != Some(Wave)
    ensures MemberWaves(Member(key, JString(s))) == []
  {
  }

  // The member-by-member reference, one member at a time.

  lemma NameCons(m: Member, rest: seq<Member>)
    ensures NodeName([m] + rest) == if NodeName(rest).Some? then NodeName(rest) else MemberName(m)
  {
    assert ([m] + rest)[1..] == rest;
  }

  lemma WeatherCons(m: Member, rest: seq<Member>)
    ensures NodeWeather([m] + rest) == MemberWeather(m) + NodeWeather(rest)
  {
    assert ([m] + rest)[1..] == rest;
  }

  lemma WavesCons(m: Member, rest: seq<Member>)
    ensures NodeWaves([m] + rest) == MemberWaves(m) + NodeWaves(rest)
  {
    assert ([m] + rest)[1..] == rest;
  }

  lemma OneMember(m: Member)
    ensures NodeName([m]) == MemberName(m)
    ensures NodeWeather([m]) == MemberWeather(m)
    ensures NodeWaves([m]) == MemberWaves(m)
  {
    assert [m] + [] == [m];
    NameCons(m, []);
    WeatherCons(m, []);
    WavesCons(m, []);
    AppendEmpty(MemberWeather(m));
    AppendEmpty(MemberWaves(m));
  }

  lemma TwoMembers(a: Member, b: Member)
    ensures NodeName([a, b]) == if MemberName(b).Some? then MemberName(b) else MemberName(a)
    ensures NodeWeather([a, b]) == MemberWeather(a) + MemberWeather(b)
    ensures NodeWaves([a, b]) == MemberWaves(a) + MemberWaves(b)
  {
    OneMember(b);
    assert [a] + [b] == [a, b];
    NameCons(a, [b]);
    WeatherCons(a, [b]);
    WavesCons(a, [b]);
  }

  lemma ThreeMembers(a: Member, b: Member, c: Member)
    ensures NodeName([a, b, c]) ==
      if MemberName(c).Some? then MemberName(c)
      else if MemberName(b).Some? then MemberName(b)
      else MemberName(a)
    ensures NodeWeather([a, b, c]) == MemberWeather(a) + MemberWeather(b) + MemberWeather(c)
    ensures NodeWaves([a, b, c]) == MemberWaves(a) + MemberWaves(b) + MemberWaves(c)
  {
    TwoMembers(b, c);
    assert [a] + [b, c] == [a, b, c];
    NameCons(a, [b, c]);
    WeatherCons(a, [b, c]);
    WavesCons(a, [b, c]);
    AppendAssoc(MemberWeather(a), MemberWeather(b), MemberWeather(c));
    AppendAssoc(MemberWaves(a), MemberWaves(b), MemberWaves(c));
  }

  /** Members whose values are all strings never reach the accumulator. */
  lemma StringsAreShallow(fields: seq<Member>)
    requires forall j :: 0 <= j < |fields| ==> fields[j].value.JString?
    ensures forall j :: 0 <= j < |fields| ==> Shallow(fields[j])
  {
  }

  /** An object of three trimmed string members keyed as a waypoint, a weather
      reading and a wave reading is exactly one location record. */
  lemma FlatObjectFacts(pk: string, place: string, wk: string, wind: string, vk: string, wave: string)
    requires Classify(pk) == Some(Waypoint) && Classify(wk) == Some(Weather) && Classify(vk) == Some(Wave)
    requires Trimmed(place) && Trimmed(wind) && Trimmed(wave)
    ensures var fs := [Member(pk, JString(place)), Member(wk, JString(wind)), Member(vk, JString(wave))];
      NodeName(fs) == Some(place) && NodeWeather(fs) == [wk + ": " + wind] && NodeWaves(fs) == [vk + ": " + wave]
  {
    var a, b, c := Member(pk, JString(place)), Member(wk, JString(wind)), Member(vk, JString(wave));
    StringMember(pk, place, Some(Waypoint));
    StringMember(wk, wind, Some(Weather));
    StringMember(vk, wave, Some(Wave));
    ThreeMembers(a, b, c);
    AppendEmpty([wk + ": " + wind]);
    AppendEmpty([vk + ": " + wave]);
  }

  /** A document that is one object of string members is, through the primary
      pass, that object's own record when it has a name and a fact, and nothing
      otherwise. */
  lemma StringObjectPrimary(fs: seq<Member>)
    requires forall j :: 0 <= j < |fs| ==> fs[j].value.JString?
    ensures Primary(JObject(fs)) ==
      if NodeName(fs).Some? && (NodeWeather(fs) != [] || NodeWaves(fs) != []) then
        [LocationRecord(NodeName(fs).value, NodeWeather(fs), NodeWaves(fs))]
      else []
  {
    StringsAreShallow(fs);
    ShallowObject(fs, []);
    if NodeName(fs).Some? {
      var r := LocationRecord(NodeName(fs).value, NodeWeather(fs), NodeWaves(fs));
      assert [] + [r] == [r];
    }
  }

  /** Whatever the primary pass finds is the result. */
  lemma ExtractOfPrimary(doc: Json, ds: seq<LocationRecord>)
    requires Primary(doc) == ds && ds != []
    ensures ExtractMaritimeData(doc) == Dataset(ds)
  {
  }

  lemma StringObjectRecord(fs: seq<Member>, r: LocationRecord)
    requires forall j :: 0 <= j < |fs| ==> fs[j].value.JString?
    requires NodeName(fs) == Some(r.name) && NodeWeather(fs) == r.weather && NodeWaves(fs) == r.waves
    requires r.weather != [] || r.waves != []
    ensures Primary(JObject(fs)) == [r]
  {
    StringObjectPrimary(fs);
  }

  /** An object of three trimmed string members keyed as a waypoint, a weather
      reading and a wave reading is one location record through the whole extractor. */
  lemma FlatObject(pk: string, place: string, wk: string, wind: string, vk: string, wave: string)
    requires Classify(pk) == Some(Waypoint) && Classify(wk) == Some(Weather) && Classify(vk) == Some(Wave)
    requires Trimmed(place) && Trimmed(wind) && Trimmed(wave)
    ensures ExtractMaritimeData(JObject(FlatFields(pk, place, wk, wind, vk, wave)))
      == Dataset([FlatRecordOf(place, wk, wind, vk, wave)])
  {
    FlatObjectPrimary(pk, place, wk, wind, vk, wave);
    ExtractOfPrimary(JObject(FlatFields(pk, place, wk, wind, vk, wave)), [FlatRecordOf(place, wk, wind, vk, wave)]);
  }

  /** The three members `{pk: place, wk: wind, vk: wave}`. */
  function FlatFields(pk: string, place: string, wk: string, wind: string, vk: string, wave: string): seq<Member> {
    [Member(pk, JString(place)), Member(wk, JString(wind)), Member(vk, JString(wave))]
  }

  /** The record such an object stands for. */
  function FlatRecordOf(place: string, wk: string, wind: string, vk: string, wave: string): LocationRecord {
    LocationRecord(place, [wk + ": " + wind], [vk + ": " + wave])
  }

  lemma FlatObjectPrimary(pk: string, place: string, wk: string, wind: string, vk: string, wave: string)
    requires Classify(pk) == Some(Waypoint) && Classify(wk) == Some(Weather) && Classify(vk) == Some(Wave)
    requires Trimmed(place) && Trimmed(wind) && Trimmed(wave)
    ensures Primary(JObject(FlatFields(pk, place, wk, wind, vk, wave))) == [FlatRecordOf(place, wk, wind, vk, wave)]
  {
    FlatFieldsRecord(pk, place, wk, wind, vk, wave);
    StringObjectRecord(FlatFields(pk, place, wk, wind, vk, wave), FlatRecordOf(place, wk, wind, vk, wave));
  }

  /** The member-by-member reference agrees with the record. */
  lemma FlatFieldsRecord(pk: string, place: string, wk: string, wind: string, vk: string, wave: string)
    requires Classify(pk) == Some(Waypoint) && Classify(wk) == Some(Weather) && Classify(vk) == Some(Wave)
    requires Trimmed(place) && Trimmed(wind) && Trimmed(wave)
    ensures var fs := FlatFields(pk, place, wk, wind, vk, wave);
      var r := FlatRecordOf(place, wk, wind, vk, wave);
      && (forall j :: 0 <= j < |fs| ==> fs[j].value.JString?)
      && NodeName(fs) == Some(r.name) && NodeWeather(fs) == r.weather && NodeWaves(fs) == r.waves
  {
    var fs := FlatFields(pk, place, wk, wind, vk, wave);
    FlatFieldsStrings(pk, place, wk, wind, vk, wave);
    FlatObjectFacts(pk, place, wk, wind, vk, wave);
    assert fs == [Member(pk, JString(place)), Member(wk, JString(wind)), Member(vk, JString(wave))];
  }

  lemma FlatFieldsStrings(pk: string, place: string, wk: string, wind: string, vk: string, wave: string)
    ensures var fs := FlatFields(pk, place, wk, wind, vk, wave);
      forall j :: 0 <= j < |fs| ==> fs[j].value.JString?
  {
  }

  // ---------------------------------------------------------------------------
  // The doubling of the shared list.

  /** An array whose first item is an object that emits a record, followed by any
      scalar: the object's record lands in the shared list, then the scalar's visit
      hands that list back and the array's loop extends it with itself. */
  lemma {:induction false} RecordThenScalar(fs: seq<Member>, r: LocationRecord, x: Json)
    requires forall j :: 0 <= j < |fs| ==> fs[j].value.JString?
    requires NodeName(fs) == Some(r.name) && NodeWeather(fs) == r.weather && NodeWaves(fs) == r.waves
    requires r.weather != [] || r.waves != []
    requires IsScalar(x)
    ensures Primary(JArray([JObject(fs), x])) == [r, r]
  {
    var arr := JArray([JObject(fs), x]);
    ObjectEmits(fs, r);
    FirstItemEmits(arr, fs, r);
    ScalarDoublesAt(arr, 1, [r]);
    assert VisitItems(arr, 0, []) == [r] + [r];
    assert [r] + [r] == [r, r];
    ArrayPrimary(arr);
  }

  /** The primary pass over an array is the visit of its items. */
  lemma ArrayPrimary(arr: Json)
    requires arr.JArray?
    ensures Primary(arr) == VisitItems(arr, 0, [])
  {
  }

  lemma FirstItemEmits(arr: Json, fs: seq<Member>, r: LocationRecord)
    requires arr.JArray? && |arr.items| == 2 && arr.items[0] == JObject(fs)
    requires VisitNode(JObject(fs), []) == Visit([r], true)
    ensures VisitItems(arr, 0, []) == VisitItems(arr, 1, [r])
  {
  }

  /** An object of string members that has a name and a fact emits its own record
      into an empty list. */
  lemma ObjectEmits(fs: seq<Member>, r: LocationRecord)
    requires forall j :: 0 <= j < |fs| ==> fs[j].value.JString?
    requires NodeName(fs) == Some(r.name) && NodeWeather(fs) == r.weather && NodeWaves(fs) == r.waves
    requires r.weather != [] || r.waves != []
    ensures VisitNode(JObject(fs), []) == Visit([r], true)
  {
    StringsAreShallow(fs);
    ShallowObject(fs, []);
    EmitRule(fs, []);
    assert [] + [r] == [r];
  }

  /** A scalar as the last item of an array doubles the list it is visited with. */
  lemma ScalarDoublesAt(arr: Json, i: nat, acc: seq<LocationRecord>)
    requires arr.JArray? && i == |arr.items| - 1 && IsScalar(arr.items[i]) && acc != []
    ensures VisitItems(arr, i, acc) == acc + acc
  {
  }

  /** A flat object followed by a scalar in one array: the extractor reports the
      object's one location twice. */
  lemma FlatThenScalar(pk: string, place: string, wk: string, wind: string, vk: string, wave: string, x: Json)
    requires Classify(pk) == Some(Waypoint) && Classify(wk) == Some(Weather) && Classify(vk) == Some(Wave)
    requires Trimmed(place) && Trimmed(wind) && Trimmed(wave)
    requires IsScalar(x)
    ensures var r := FlatRecordOf(place, wk, wind, vk, wave);
      ExtractMaritimeData(JArray([JObject(FlatFields(pk, place, wk, wind, vk, wave)), x])) == Dataset([r, r])
  {
    var r := FlatRecordOf(place, wk, wind, vk, wave);
    FlatThenScalarPrimary(pk, place, wk, wind, vk, wave, x);
    ExtractOfPrimary(JArray([JObject(FlatFields(pk, place, wk, wind, vk, wave)), x]), [r, r]);
  }

  lemma FlatThenScalarPrimary(pk: string, place: string, wk: string, wind: string, vk: string, wave: string, x: Json)
    requires Classify(pk) == Some(Waypoint) && Classify(wk) == Some(Weather) && Classify(vk) == Some(Wave)
    requires Trimmed(place) && Trimmed(wind) && Trimmed(wave)
    requires IsScalar(x)
    ensures var r := FlatRecordOf(place, wk, wind, vk, wave);
      Primary(JArray([JObject(FlatFields(pk, place, wk, wind, vk, wave)), x])) == [r, r]
  {
    FlatFieldsRecord(pk, place, wk, wind, vk, wave);
    RecordThenScalar(FlatFields(pk, place, wk, wind, vk, wave), FlatRecordOf(place, wk, wind, vk, wave), x);
  }

  /** The keys of the flat example `{"waypoint": …, "wind_speed": …, "wave_height": …}`
      fall into the three categories, so the lemmas above apply to it. */
  lemma FlatKeys()
    ensures Classify("waypoint") == Some(Waypoint)
    ensures Classify("wind_speed") == Some(Weather)
    ensures Classify("wave_height") == Some(Wave)
  {
    KeyWaypoint();
    KeyWindSpeed();
    KeyWaveHeight();
  }

  // ---------------------------------------------------------------------------
  // A document the primary pass finds nothing in.

  /** `{p: {k: s}}` under a waypoint key that names no weather or wave: the inner
      object has at most a name or a fact, never both, so the primary pass emits
      nothing, and the fallback turns the nested string into one record with no
      facts. */
  lemma NestedWaypointFallback(p: string, k: string, s: string)
    requires IsWaypointKey(p) && !IsWeatherKey(p) && !IsWaveKey(p) && Strip(s) != ""
    ensures ExtractMaritimeData(JObject([Member(p, JObject([Member(k, JString(s))]))]))
      == Dataset([LocationRecord(Strip(s), [], [])])
  {
    var doc := JObject([Member(p, JObject([Member(k, JString(s))]))]);
    NestedQuietPrimary(p, k, s);
    NestedUnderWaypoint(p, k, s);
    FallbackOfOne(doc, Strip(s));
  }

  /** A document whose flattened pool holds one waypoint and no facts falls back to
      one record of that name. */
  lemma FallbackOfOne(doc: Json, name: string)
    requires FlattenNode(doc, "") == Pool([name], [], [])
    ensures Fallback(doc) == [LocationRecord(name, [], [])]
  {
    var r := Fallback(doc);
    assert |r| == 1 && r[0] == LocationRecord(name, [], []);
  }

  lemma NestedQuietPrimary(p: string, k: string, s: string)
    requires !IsWeatherKey(p) && !IsWaveKey(p)
    ensures Primary(JObject([Member(p, JObject([Member(k, JString(s))]))])) == []
  {
    var sub := [Member(k, JString(s))];
    var doc := JObject([Member(p, JObject(sub))]);
    OneStringQuiet(k, s);
    NestedObjectDoubles(doc, 0, EmptyFrame, []);
    assert StepMember(doc, 0, EmptyFrame, []) == Scan([], EmptyFrame);
    assert ScanFields(doc, 1, EmptyFrame, []) == Scan([], EmptyFrame);
    NamelessVisit(doc, []);
  }

  /** An object of one string member has a name or a fact, never both. */
  lemma OneStringQuiet(k: string, s: string)
    ensures var sub := [Member(k, JString(s))];
      && (forall j :: 0 <= j < |sub| ==> Shallow(sub[j]))
      && (NodeName(sub).None? || (NodeWeather(sub) == [] && NodeWaves(sub) == []))
  {
    var sub := [Member(k, JString(s))];
    StringsAreShallow(sub);
    OneMember(sub[0]);
  }

  /** An object whose scan leaves the frame empty emits nothing. */
  lemma NamelessVisit(obj: Json, acc: seq<LocationRecord>)
    requires obj.JObject? && ScanFields(obj, 0, EmptyFrame, acc) == Scan(acc, EmptyFrame)
    ensures VisitNode(obj, acc) == Visit(acc, false)
  {
  }
}

=== FILE: flattener.dfy ===
/** The fallback pass of the extractor (`fallback_extract`, json_to_claude.py:123-155):
    one walk over the whole document gathering three flat lists, then one record per
    waypoint value, every record sharing the same weather and wave lists. */
module Flattener {
  import opened Wrappers
  import opened Text
  import opened Documents
  import opened Keywords
  import opened Records
  import opened Classifier

  /** The three lists the walk appends to, in traversal order. */
  datatype Pool = Pool(waypoints: seq<string>, weather: seq<string>, waves: seq<string>)

  const EmptyPool: Pool := Pool([], [], [])

  /** Concatenation of two pools, list by list. */
  function Merge(a: Pool, b: Pool): Pool {
    Pool(a.waypoints + b.waypoints, a.weather + b.weather, a.waves + b.waves)
  }

  predicate PoolOk(p: Pool) {
    forall w | w in p.waypoints :: IsName(w)
  }

  /** The path of a member under `parent`: `parent.key`, or just `key` at the root
      (and, as in the source, whenever the parent path is the empty string). */
  function ChildPath(parent: string, key: string): string {
    if parent == "" then key else parent + "." + key
  }

  /** The path of an array item: `parent[i]`. */
  function IndexPath(parent: string, i: nat): string {
    parent + "[" + Decimal(i) + "]"
  }

  /** A non-blank string leaf: classified by its full path, recorded under its own key. */
  function Leaf(key: string, path: string, value: string): (p: Pool)
    requires Strip(value) != ""
    ensures PoolOk(p)
  {
    LeafOf(Classify(path), key, value)
  }

  /** The leaf's contribution once its path is classified as `c`. */
  function LeafOf(c: Option<Category>, key: string, value: string): (p: Pool)
    requires Strip(value) != ""
    ensures PoolOk(p)
  {
    StripIdempotent(value);
    match c
    case Some(Waypoint) => Pool([Strip(value)], [], [])
    case Some(Weather) => Pool([], [Fact(key, value)], [])
    case Some(Wave) => Pool([], [], [Fact(key, value)])
    case None => EmptyPool
  }

  /** Everything the walk gathers below `v`, whose path is `path`. */
  function FlattenNode(v: Json, path: string): (p: Pool)
    ensures PoolOk(p)
    decreases v, 2
  {
    match v
    case JObject(_) => FlattenFields(v, 0, path)
    case JArray(_) => FlattenItems(v, 0, path)
    case _ => EmptyPool
  }

  /** The members of `obj` from index `i` on. A non-blank string is a leaf; every
      other value, including a blank string, is walked under the member's path. */
  function FlattenFields(obj: Json, i: nat, path: string): (p: Pool)
    requires obj.JObject? && i <= |obj.fields|
    ensures PoolOk(p)
    decreases obj, 1, |obj.fields| - i
  {
    if i == |obj.fields| then EmptyPool
    else
      var m := obj.fields[i];
      assert m in obj.fields;
      var full := ChildPath(path, m.key);
      var here := match m.value
        case JString(s) => if Strip(s) != "" then Leaf(m.key, full, s) else EmptyPool
        case _ => FlattenNode(m.value, full);
      Merge(here, FlattenFields(obj, i + 1, path))
  }

  /** The items of `arr` from index `i` on, each under `path[i]`. */
  function FlattenItems(arr: Json, i: nat, path: string): (p: Pool)
    requires arr.JArray? && i <= |arr.items|
    ensures PoolOk(p)
    decreases arr, 1, |arr.items| - i
  {
    if i == |arr.items| then EmptyPool
    else
      assert arr.items[i] in arr.items;
      Merge(FlattenNode(arr.items[i], IndexPath(path, i)), FlattenItems(arr, i + 1, path))
  }

  /** One record per gathered waypoint value, in order, each carrying the whole
      weather list and the whole wave list (possibly empty). */
  function Fallback(doc: Json): (r: seq<LocationRecord>)
    ensures var p := FlattenNode(doc, "");
      && |r| == |p.waypoints|
      && (forall i :: 0 <= i < |r| ==> r[i].name == p.waypoints[i] && IsName(r[i].name))
      && (forall i :: 0 <= i < |r| ==> r[i].weather == p.weather && r[i].waves == p.waves)
  {
    var p := FlattenNode(doc, "");
    seq(|p.waypoints|, i requires 0 <= i < |p.waypoints| => LocationRecord(p.waypoints[i], p.weather, p.waves))
  }

  /** Matching uses the whole path: once a path mentions a waypoint keyword, every
      string below it classifies as a waypoint, whatever its own key says. */
  lemma PathInheritsWaypoint(parent: string, key: string)
    requires parent != "" && IsWaypointKey(parent)
    ensures Classify(ChildPath(parent, key)) == Some(Waypoint)
  {
    MentionsExtend(parent, "." + key, WaypointKeywords);
    assert parent + ("." + key) == parent + "." + key;
  }

  // ---------------------------------------------------------------------------
  // A reference reading of the walk: first list the string leaves in document
  // order, then file each leaf under the list its path classifies it for.

  /** A non-blank string member met by the walk: its own key, the full path it is
      classified by, and its raw value. */
  datatype StringLeaf = StringLeaf(key: string, path: string, value: string)

  /** Every leaf is non-blank and sits below `path`. */
  predicate Rooted(leaves: seq<StringLeaf>, path: string) {
    forall k :: 0 <= k < |leaves| ==> Strip(leaves[k].value) != "" && path <= leaves[k].path
  }

  /** The non-blank string members below `v` (whose path is `path`), in the order
      the walk meets them. */
  function Leaves(v: Json, path: string): (r: seq<StringLeaf>)
    ensures Rooted(r, path)
    decreases v, 2
  {
    match v
    case JObject(_) => FieldLeaves(v, 0, path)
    case JArray(_) => ItemLeaves(v, 0, path)
    case _ => []
  }

  /** The leaves of the members of `obj` from index `i` on. */
  function FieldLeaves(obj: Json, i: nat, path: string): (r: seq<StringLeaf>)
    requires obj.JObject? && i <= |obj.fields|
    ensures Rooted(r, path)
    decreases obj, 1, |obj.fields| - i
  {
    if i == |obj.fields| then []
    else
      var m := obj.fields[i];
      assert m in obj.fields;
      var mine := MemberLeaves(m, path);
      var rest := FieldLeaves(obj, i + 1, path);
      RootedAppend(mine, rest, path);
      mine + rest
  }

  /** The leaves one member contributes: itself when it is a non-blank string,
      otherwise whatever lies below it under its own path. */
  function MemberLeaves(m: Member, path: string): (r: seq<StringLeaf>)
    ensures Rooted(r, path)
    decreases m, 0
  {
    var full := ChildPath(path, m.key);
    ChildPathExtends(path, m.key);
    if m.value.JString? && Strip(m.value.s) != "" then
      var r := [StringLeaf(m.key, full, m.value.s)];
      assert r[0].path == full;
      r
    else
      var r := Leaves(m.value, full);
      RootedWiden(r, full, path);
      r
  }

  /** The leaves of the items of `arr` from index `i` on. */
  function ItemLeaves(arr: Json, i: nat, path: string): (r: seq<StringLeaf>)
    requires arr.JArray? && i <= |arr.items|
    ensures Rooted(r, path)
    decreases arr, 1, |arr.items| - i
  {
    if i == |arr.items| then []
    else
      assert arr.items[i] in arr.items;
      var mine := Leaves(arr.items[i], IndexPath(path, i));
      var rest := ItemLeaves(arr, i + 1, path);
      IndexPathExtends(path, i);
      RootedWiden(mine, IndexPath(path, i), path);
      RootedAppend(mine, rest, path);
      mine + rest
  }

  lemma RootedAppend(a: seq<StringLeaf>, b: seq<StringLeaf>, path: string)
    requires Rooted(a, path) && Rooted(b, path)
    ensures Rooted(a + b, path)
  {
    forall k | 0 <= k < |a + b|
      ensures Strip((a + b)[k].value) != "" && path <= (a + b)[k].path
    {
      if k < |a| { assert (a + b)[k] == a[k]; } else { assert (a + b)[k] == b[k - |a|]; }
    }
  }

  lemma RootedWiden(leaves: seq<StringLeaf>, inner: string, path: string)
    requires Rooted(leaves, inner) && path <= inner
    ensures Rooted(leaves, path)
  {
    forall k | 0 <= k < |leaves| ensures path <= leaves[k].path {
      PrefixTrans(path, inner, leaves[k].path);
    }
  }

  lemma PrefixTrans(a: string, b: string, c: string)
    requires a <= b && b <= c
    ensures a <= c
  {
    assert a == b[..|a|];
    assert b == c[..|b|];
    assert c[..|b|][..|a|] == c[..|a|];
  }

  lemma ChildPathExtends(parent: string, key: string)
    ensures parent <= ChildPath(parent, key)
  {
    if parent != "" {
      assert ChildPath(parent, key) == parent + ("." + key);
    }
  }

  lemma IndexPathExtends(parent: string, i: nat)
    ensures parent <= IndexPath(parent, i)
  {
    assert IndexPath(parent, i) == parent + ("[" + Decimal(i) + "]");
  }

  /** What the walk files for one leaf (nothing for a blank one, which `Leaves`
      never lists). */
  function FileLeaf(l: StringLeaf): Pool {
    if Strip(l.value) != "" then Leaf(l.key, l.path, l.value) else EmptyPool
  }

  /** The walk's three lists for a list of leaves: each leaf filed, the results
      concatenated list by list. */
  function Filed(leaves: seq<StringLeaf>): Pool {
    MergeAll(Map(FileLeaf, leaves))
  }

  function Map<A, B>(f: A -> B, s: seq<A>): (r: seq<B>)
    ensures |r| == |s|
  {
    seq(|s|, k requires 0 <= k < |s| => f(s[k]))
  }

  lemma MapAppend<A, B>(f: A -> B, a: seq<A>, b: seq<A>)
    ensures Map(f, a + b) == Map(f, a) + Map(f, b)
  {
    forall k | 0 <= k < |a + b| ensures Map(f, a + b)[k] == (Map(f, a) + Map(f, b))[k] {
      if k < |a| {
        assert (a + b)[k] == a[k];
      } else {
        assert (a + b)[k] == b[k - |a|];
      }
    }
  }

  function MergeAll(ps: seq<Pool>): Pool {
    if ps == [] then EmptyPool else Merge(ps[0], MergeAll(ps[1..]))
  }

  lemma MergeEmpty(p: Pool)
    ensures Merge(EmptyPool, p) == p
  {
  }

  lemma MergeAssoc(a: Pool, b: Pool, c: Pool)
    ensures Merge(Merge(a, b), c) == Merge(a, Merge(b, c))
  {
    assert (a.waypoints + b.waypoints) + c.waypoints == a.waypoints + (b.waypoints + c.waypoints);
    assert (a.weather + b.weather) + c.weather == a.weather + (b.weather + c.weather);
    assert (a.waves + b.waves) + c.waves == a.waves + (b.waves + c.waves);
  }

  /** Filing distributes over concatenation of leaf lists. */
  lemma FiledAppend(a: seq<StringLeaf>, b: seq<StringLeaf>)
    ensures Filed(a + b) == Merge(Filed(a), Filed(b))
  {
    MapAppend(FileLeaf, a, b);
    MergeAllAppend(Map(FileLeaf, a), Map(FileLeaf, b));
  }

  lemma {:induction false} MergeAllAppend(a: seq<Pool>, b: seq<Pool>)
    ensures MergeAll(a + b) == Merge(MergeAll(a), MergeAll(b))
    decreases |a|
  {
    if a != [] {
      assert (a + b)[0] == a[0];
      assert (a + b)[1..] == a[1..] + b;
      MergeAllAppend(a[1..], b);
      MergeAssoc(a[0], MergeAll(a[1..]), MergeAll(b));
    } else {
      assert a + b == b;
      MergeEmpty(MergeAll(b));
    }
  }

  lemma MergeEmptyRight(p: Pool)
    ensures Merge(p, EmptyPool) == p
  {
    assert p.waypoints + [] == p.waypoints;
    assert p.weather + [] == p.weather;
    assert p.waves + [] == p.waves;
  }

  /** A single leaf is filed as the walk's `Leaf` step files it. */
  lemma FiledOne(l: StringLeaf)
    ensures Filed([l]) == FileLeaf(l)
  {
    MapOne(FileLeaf, l);
    MergeAllOne(FileLeaf(l));
  }

  lemma MapAt<A, B>(f: A -> B, s: seq<A>, k: nat)
    requires k < |s|
    ensures Map(f, s)[k] == f(s[k])
  {
  }

  lemma MapOne<A, B>(f: A -> B, x: A)
    ensures Map(f, [x]) == [f(x)]
  {
  }

  lemma MergeAllOne(p: Pool)
    ensures MergeAll([p]) == p
  {
    assert [p][1..] == [];
    MergeEmptyRight(p);
  }

  /** The walk gathers exactly its leaves, filed one by one in document order:
      `FlattenNode` is `Filed` of `Leaves` for every value and path. */
  lemma {:induction false} FlattenFilesLeaves(v: Json, path: string)
    ensures FlattenNode(v, path) == Filed(Leaves(v, path))
    decreases v, 2
  {
    match v
    case JObject(_) => FieldsFileLeaves(v, 0, path);
    case JArray(_) => ItemsFileLeaves(v, 0, path);
    case _ => assert Map(FileLeaf, []) == [];
  }

  lemma {:induction false} FieldsFileLeaves(obj: Json, i: nat, path: string)
    requires obj.JObject? && i <= |obj.fields|
    ensures FlattenFields(obj, i, path) == Filed(FieldLeaves(obj, i, path))
    decreases obj, 1, |obj.fields| - i
  {
    if i < |obj.fields| {
      var m := obj.fields[i];
      assert m in obj.fields;
      MemberFilesLeaves(obj, i, path);
      FieldsFileLeaves(obj, i + 1, path);
      FiledAppend(MemberLeaves(m, path), FieldLeaves(obj, i + 1, path));
    } else {
      assert Map(FileLeaf, []) == [];
    }
  }

  /** What one member adds to the walk is its own leaves, filed. */
  lemma {:induction false} MemberFilesLeaves(obj: Json, i: nat, path: string)
    requires obj.JObject? && i < |obj.fields|
    ensures var m := obj.fields[i];
      FlattenFields(obj, i, path) == Merge(Filed(MemberLeaves(m, path)), FlattenFields(obj, i + 1, path))
    decreases obj, 1, |obj.fields| - i, 0
  {
    var m := obj.fields[i];
    assert m in obj.fields;
    var full := ChildPath(path, m.key);
    if m.value.JString? && Strip(m.value.s) != "" {
      FiledOne(StringLeaf(m.key, full, m.value.s));
    } else {
      FlattenFilesLeaves(m.value, full);
    }
  }

  lemma {:induction false} ItemsFileLeaves(arr: Json, i: nat, path: string)
    requires arr.JArray? && i <= |arr.items|
    ensures FlattenItems(arr, i, path) == Filed(ItemLeaves(arr, i, path))
    decreases arr, 1, |arr.items| - i
  {
    if i < |arr.items| {
      assert arr.items[i] in arr.items;
      FlattenFilesLeaves(arr.items[i], IndexPath(path, i));
      ItemsFileLeaves(arr, i + 1, path);
      FiledAppend(Leaves(arr.items[i], IndexPath(path, i)), ItemLeaves(arr, i + 1, path));
    } else {
      assert Map(FileLeaf, []) == [];
    }
  }

  // ---------------------------------------------------------------------------
  // Membership: what ends up in each of the three lists.

  /** The list of `p` that category `c` feeds. */
  function List(p: Pool, c: Category): seq<string> {
    match c
    case Waypoint => p.waypoints
    case Weather => p.weather
    case Wave => p.waves
  }

  /** What a leaf contributes to the list of category `c`: the stripped value for
      a waypoint, the `key: value` fact under the leaf's own key otherwise. */
  function Entry(l: StringLeaf, c: Category): string {
    if c == Waypoint then Strip(l.value) else Fact(l.key, l.value)
  }

  lemma {:induction false} MergeAllFinds(ps: seq<Pool>, c: Category, x: string)
    ensures x in List(MergeAll(ps), c) <==> exists k :: 0 <= k < |ps| && x in List(ps[k], c)
    decreases |ps|
  {
    if ps != [] {
      MergeAllFinds(ps[1..], c, x);
      if exists k :: 0 <= k < |ps| - 1 && x in List(ps[1..][k], c) {
        var k :| 0 <= k < |ps| - 1 && x in List(ps[1..][k], c);
        assert ps[1..][k] == ps[k + 1];
      }
      if exists k :: 0 <= k < |ps| && x in List(ps[k], c) {
        var k :| 0 <= k < |ps| && x in List(ps[k], c);
        if k > 0 {
          assert ps[1..][k - 1] == ps[k];
        }
      }
    }
  }

  /** A leaf lands in exactly one list, the one its path classifies it for. */
  lemma LeafFinds(l: StringLeaf, c: Category, x: string)
    requires Strip(l.value) != ""
    ensures x in List(FileLeaf(l), c) <==> Classify(l.path) == Some(c) && x == Entry(l, c)
  {
    assert FileLeaf(l) == LeafOf(Classify(l.path), l.key, l.value);
    LeafOfFinds(Classify(l.path), l.key, l.value, c, x);
  }

  lemma LeafOfFinds(cat: Option<Category>, key: string, value: string, c: Category, x: string)
    requires Strip(value) != ""
    ensures x in List(LeafOf(cat, key, value), c) <==>
      cat == Some(c) && x == (if c == Waypoint then Strip(value) else Fact(key, value))
  {
    var p := LeafOf(cat, key, value);
    var e := if c == Waypoint then Strip(value) else Fact(key, value);
    assert List(p, c) == if cat == Some(c) then [e] else [] by {
      match cat
      case Some(Waypoint) => assert p == Pool([Strip(value)], [], []);
      case Some(Weather) => assert p == Pool([], [Fact(key, value)], []);
      case Some(Wave) => assert p == Pool([], [], [Fact(key, value)]);
      case None => assert p == EmptyPool;
    }
  }

  /** The fallback walk, read list by list: a string `x` is in the list of category
      `c` exactly when some non-blank string member below `v` has a path that
      classifies as `c` and contributes `x`. Order is the leaves' document order
      (`FlattenFilesLeaves`). */
  lemma FlattenFinds(v: Json, path: string, c: Category, x: string)
    ensures x in List(FlattenNode(v, path), c) <==>
      exists l :: l in Leaves(v, path) && Classify(l.path) == Some(c) && x == Entry(l, c)
  {
    var leaves := Leaves(v, path);
    FlattenFilesLeaves(v, path);
    MergeAllFinds(Map(FileLeaf, leaves), c, x);
    if exists k :: 0 <= k < |leaves| && x in List(Map(FileLeaf, leaves)[k], c) {
      FiledFindsOnly(leaves, c, x);
    }
    if exists l :: l in leaves && Classify(l.path) == Some(c) && x == Entry(l, c) {
      FiledFindsAll(leaves, c, x);
    }
  }

  lemma FiledFindsOnly(leaves: seq<StringLeaf>, c: Category, x: string)
    requires Rooted(leaves, "")
    requires exists k :: 0 <= k < |leaves| && x in List(Map(FileLeaf, leaves)[k], c)
    ensures exists l :: l in leaves && Classify(l.path) == Some(c) && x == Entry(l, c)
  {
    var k :| 0 <= k < |leaves| && x in List(Map(FileLeaf, leaves)[k], c);
    MapAt(FileLeaf, leaves, k);
    LeafFinds(leaves[k], c, x);
    assert leaves[k] in leaves;
  }

  lemma FiledFindsAll(leaves: seq<StringLeaf>, c: Category, x: string)
    requires Rooted(leaves, "")
    requires exists l :: l in leaves && Classify(l.path) == Some(c) && x == Entry(l, c)
    ensures exists k :: 0 <= k < |leaves| && x in List(Map(FileLeaf, leaves)[k], c)
  {
    var l :| l in leaves && Classify(l.path) == Some(c) && x == Entry(l, c);
    var k :| 0 <= k < |leaves| && leaves[k] == l;
    MapAt(FileLeaf, leaves, k);
    LeafFinds(l, c, x);
  }


  // ---------------------------------------------------------------------------
  // Which members are leaves.

  lemma {:induction false} MemberLeavesIn(obj: Json, j: nat, i: nat, path: string)
    requires obj.JObject? && j <= i < |obj.fields|
    ensures forall l | l in MemberLeaves(obj.fields[i], path) :: l in FieldLeaves(obj, j, path)
    decreases i - j
  {
    var a := MemberLeaves(obj.fields[j], path);
    var b := FieldLeaves(obj, j + 1, path);
    assert FieldLeaves(obj, j, path) == a + b;
    InAppend(a, b);
    if j < i {
      MemberLeavesIn(obj, j + 1, i, path);
    }
  }

  lemma InAppend<T>(a: seq<T>, b: seq<T>)
    ensures forall x | x in a :: x in a + b
    ensures forall x | x in b :: x in a + b
  {
  }

  lemma {:induction false} ItemLeavesIn(arr: Json, j: nat, i: nat, path: string)
    requires arr.JArray? && j <= i < |arr.items|
    ensures forall l | l in Leaves(arr.items[i], IndexPath(path, i)) :: l in ItemLeaves(arr, j, path)
    decreases i - j
  {
    var a := Leaves(arr.items[j], IndexPath(path, j));
    var b := ItemLeaves(arr, j + 1, path);
    assert ItemLeaves(arr, j, path) == a + b;
    InAppend(a, b);
    if j < i {
      ItemLeavesIn(arr, j + 1, i, path);
    }
  }

  /** Every non-blank string member of an object is one of its leaves, under the
      member's own key and the path `parent.key`. */
  lemma StringMemberIsLeaf(obj: Json, i: nat, path: string)
    requires obj.JObject? && i < |obj.fields|
    requires obj.fields[i].value.JString? && Strip(obj.fields[i].value.s) != ""
    ensures var m := obj.fields[i];
      StringLeaf(m.key, ChildPath(path, m.key), m.value.s) in Leaves(obj, path)
  {
    var m := obj.fields[i];
    assert MemberLeaves(m, path) == [StringLeaf(m.key, ChildPath(path, m.key), m.value.s)];
    MemberLeavesIn(obj, 0, i, path);
  }

  /** Every other member (a blank string included) is descended into: the leaves
      below it, under the path `parent.key`, are leaves of the object. */
  lemma NestedLeavesAreLeaves(obj: Json, i: nat, path: string)
    requires obj.JObject? && i < |obj.fields|
    requires !(obj.fields[i].value.JString? && Strip(obj.fields[i].value.s) != "")
    ensures var m := obj.fields[i];
      forall l | l in Leaves(m.value, ChildPath(path, m.key)) :: l in Leaves(obj, path)
  {
    var m := obj.fields[i];
    assert MemberLeaves(m, path) == Leaves(m.value, ChildPath(path, m.key));
    MemberLeavesIn(obj, 0, i, path);
  }

  /** Every array item is descended into under the path `parent[i]`. */
  lemma ItemLeavesAreLeaves(arr: Json, i: nat, path: string)
    requires arr.JArray? && i < |arr.items|
    ensures forall l | l in Leaves(arr.items[i], IndexPath(path, i)) :: l in Leaves(arr, path)
  {
    ItemLeavesIn(arr, 0, i, path);
  }

  /** No waypoint keyword occurs in the empty key. */
  lemma EmptyKeyNotWaypoint()
    ensures !IsWaypointKey("")
  {
    assert Lower("") == "";
  }

  /** A string nested under a waypoint-named object is a waypoint whatever its own
      key: `{p: {k: s}}` gathers the one waypoint `s.strip()` and no facts. */
  lemma NestedUnderWaypoint(p: string, k: string, s: string)
    requires IsWaypointKey(p) && Strip(s) != ""
    ensures FlattenNode(JObject([Member(p, JObject([Member(k, JString(s))]))]), "") == Pool([Strip(s)], [], [])
  {
    EmptyKeyNotWaypoint();
    var inner := JObject([Member(k, JString(s))]);
    PathInheritsWaypoint(p, k);
    WaypointLeaf(k, ChildPath(p, k), s);
    OneStringMember(k, s, p);
    OneNestedMember(p, inner, "");
    assert ChildPath("", p) == p;
  }

  lemma WaypointLeaf(key: string, path: string, value: string)
    requires Classify(path) == Some(Waypoint) && Strip(value) != ""
    ensures Leaf(key, path, value) == Pool([Strip(value)], [], [])
  {
  }

  /** An object with one non-blank string member gathers just that leaf. */
  lemma OneStringMember(key: string, s: string, path: string)
    requires Strip(s) != ""
    ensures FlattenNode(JObject([Member(key, JString(s))]), path) == Leaf(key, ChildPath(path, key), s)
  {
    var obj := JObject([Member(key, JString(s))]);
    var l := StringLeaf(key, ChildPath(path, key), s);
    OneStringLeaf(key, s, path);
    FlattenFilesLeaves(obj, path);
    FiledOne(l);
  }

  lemma OneStringLeaf(key: string, s: string, path: string)
    requires Strip(s) != ""
    ensures Leaves(JObject([Member(key, JString(s))]), path) == [StringLeaf(key, ChildPath(path, key), s)]
  {
    var obj := JObject([Member(key, JString(s))]);
    var l := StringLeaf(key, ChildPath(path, key), s);
    assert MemberLeaves(obj.fields[0], path) == [l];
    assert FieldLeaves(obj, 1, path) == [];
    assert [l] + [] == [l];
  }

  /** An object with one member holding an object gathers what that object gathers
      under the member's path. */
  lemma OneNestedMember(key: string, v: Json, path: string)
    requires v.JObject?
    ensures FlattenNode(JObject([Member(key, v)]), path) == FlattenNode(v, ChildPath(path, key))
  {
    var obj := JObject([Member(key, v)]);
    var here := FlattenNode(v, ChildPath(path, key));
    assert FlattenFields(obj, 1, path) == EmptyPool;
    assert FlattenFields(obj, 0, path) == Merge(here, EmptyPool);
    MergeEmptyRight(here);
  }
}

=== FILE: keywords.dfy ===
/** The three fixed keyword lists and the field-name classification the
    extractor performs with them. */
module Keywords {
  import opened Wrappers
  import opened Text

  const WaypointKeywords: seq<string> :=
    ["waypoint", "buoy", "destination", "port", "harbor", "location", "place", "name", "point"]

  const WeatherKeywords: seq<string> :=
    ["weather", "wind", "temperature", "temp", "pressure", "humidity", "visibility", "condition", "forecast"]

  const WaveKeywords: seq<string> :=
    ["wave", "swell", "height", "period", "direction", "sea", "surf", "tide", "current"]

  /** What a string field is taken to describe. */
  datatype Category = Waypoint | Weather | Wave

  /** Some keyword of the list occurs in the lowered text. */
  ghost predicate Mentions(text: string, keywords: seq<string>) {
    exists i :: 0 <= i < |keywords| && Contains(Lower(text), keywords[i])
  }

  /** `any(keyword in lowered for keyword in keywords)`, trying the keywords in order. */
  function AnyKeyword(lowered: string, keywords: seq<string>): (b: bool)
    ensures b <==> exists i :: 0 <= i < |keywords| && Contains(lowered, keywords[i])
    decreases |keywords|
  {
    if |keywords| == 0 then false
    else Contains(lowered, keywords[0]) || AnyKeyword(lowered, keywords[1..])
  }

  predicate IsWaypointKey(key: string) { AnyKeyword(Lower(key), WaypointKeywords) }
  predicate IsWeatherKey(key: string) { AnyKeyword(Lower(key), WeatherKeywords) }
  predicate IsWaveKey(key: string) { AnyKeyword(Lower(key), WaveKeywords) }

  /** Classification of a key whose value is a non-blank string: the first list
      that has a keyword in the lowered key wins, tested waypoint, weather, wave. */
  function Classify(key: string): (c: Option<Category>)
    ensures c == Some(Waypoint) <==> Mentions(key, WaypointKeywords)
    ensures c == Some(Weather) <==> !Mentions(key, WaypointKeywords) && Mentions(key, WeatherKeywords)
    ensures c == Some(Wave) <==>
      !Mentions(key, WaypointKeywords) && !Mentions(key, WeatherKeywords) && Mentions(key, WaveKeywords)
    ensures c == None <==>
      !Mentions(key, WaypointKeywords) && !Mentions(key, WeatherKeywords) && !Mentions(key, WaveKeywords)
  {
    if IsWaypointKey(key) then Some(Waypoint)
    else if IsWeatherKey(key) then Some(Weather)
    else if IsWaveKey(key) then Some(Wave)
    else None
  }

  /** No keyword of the list occurs in `lowered` when, for each keyword, the
      matching character of `probe` occurs in the keyword but not in `lowered`. */
  lemma NoKeyword(lowered: string, keywords: seq<string>, probe: string)
    requires |probe| == |keywords|
    requires forall i :: 0 <= i < |keywords| ==> probe[i] in keywords[i] && probe[i] !in lowered
    ensures !AnyKeyword(lowered, keywords)
  {
    forall i | 0 <= i < |keywords| ensures !Contains(lowered, keywords[i]) {
      MissingCharExcludes(lowered, keywords[i], probe[i]);
    }
  }

  /** A key that starts with a waypoint keyword (in either case) is a waypoint key. */
  lemma WaypointByPrefix(key: string, i: nat)
    requires i < |WaypointKeywords|
    requires StartsWith(Lower(key), WaypointKeywords[i])
    ensures Classify(key) == Some(Waypoint)
  {
    PrefixContains(Lower(key), WaypointKeywords[i]);
  }

  /** Extending a key on the right never loses a keyword it already mentions:
      the extractor's dotted paths inherit their parent's category hits. */
  lemma {:induction false} MentionsExtend(key: string, suffix: string, keywords: seq<string>)
    requires AnyKeyword(Lower(key), keywords)
    ensures AnyKeyword(Lower(key + suffix), keywords)
  {
    var i :| 0 <= i < |keywords| && Contains(Lower(key), keywords[i]);
    LowerAppend(key, suffix);
    ContainsInPrefix(Lower(key), Lower(suffix), keywords[i]);
  }
}

=== FILE: prompt.dfy ===
/** The prompt composer (`format_maritime_prompt`, json_to_claude.py:160-180): an
    optional prefix followed by one `LOCATION:` section per record, joined by spaces. */
module Prompt {
  import opened Wrappers
  import opened Text
  import opened Records

  const LocationTag: string := "LOCATION: "
  const WeatherTag: string := " WEATHER: "
  const WavesTag: string := " WAVES: "

  /** The weather part of a section: empty when the record has no weather facts. */
  function WeatherPart(r: LocationRecord): string {
    if r.weather != [] then WeatherTag + Join(" ", r.weather) else ""
  }

  /** The wave part of a section: empty when the record has no wave facts. */
  function WavesPart(r: LocationRecord): string {
    if r.waves != [] then WavesTag + Join(" ", r.waves) else ""
  }

  /** One record's section: the tagged name, then the weather facts and the wave
      facts, each tagged and space-joined, each only when present. */
  function Section(r: LocationRecord): (s: string)
    ensures StartsWith(s, LocationTag + r.name)
    ensures r.weather == [] && r.waves == [] <==> s == LocationTag + r.name
    ensures r.waves != [] ==> EndsWith(s, WavesTag + Join(" ", r.waves))
    ensures r.waves == [] && r.weather != [] ==> EndsWith(s, WeatherTag + Join(" ", r.weather))
    ensures r.weather != [] ==> Contains(s, WeatherTag + Join(" ", r.weather))
    ensures r.weather == [] && r.waves != [] ==> s == LocationTag + r.name + WavesTag + Join(" ", r.waves)
    ensures r.weather != [] && r.waves == [] ==> s == LocationTag + r.name + WeatherTag + Join(" ", r.weather)
    ensures r.weather != [] && r.waves != [] ==>
      s == LocationTag + r.name + WeatherTag + Join(" ", r.weather) + WavesTag + Join(" ", r.waves)
  {
    SectionFacts(r);
    LocationTag + r.name + WeatherPart(r) + WavesPart(r)
  }

  lemma SectionFacts(r: LocationRecord)
    ensures var s := LocationTag + r.name + WeatherPart(r) + WavesPart(r);
      && StartsWith(s, LocationTag + r.name)
      && (r.weather != [] ==> Contains(s, WeatherTag + Join(" ", r.weather)))
  {
    var head := LocationTag + r.name;
    var s := head + WeatherPart(r) + WavesPart(r);
    assert s[..|head|] == head;
    if r.weather != [] {
      var w := WeatherTag + Join(" ", r.weather);
      assert s == head + w + WavesPart(r);
      PrefixContains(w, w);
      ContainsInSuffix(head, w, w);
      ContainsInPrefix(head + w, WavesPart(r), w);
    }
  }

  /** The sections of a dataset, in dataset order. */
  function Sections(locs: seq<LocationRecord>): (r: seq<string>)
    ensures |r| == |locs|
    ensures forall i :: 0 <= i < |locs| ==> r[i] == Section(locs[i])
  {
    seq(|locs|, i requires 0 <= i < |locs| => Section(locs[i]))
  }

  /** The prefix as a list of sections: present only when non-empty. */
  function Lead(prefix: string): seq<string> {
    if prefix != "" then [prefix] else []
  }

  /** The prompt for a dataset under an optional prefix. */
  function Compose(d: Dataset, prefix: string): (p: string)
    ensures d.locations == [] ==> p == prefix
    ensures prefix != "" ==> StartsWith(p, prefix)
    ensures prefix == "" && d.locations != [] ==> StartsWith(p, LocationTag + d.locations[0].name)
  {
    ComposeHead(d, prefix);
    Join(" ", Lead(prefix) + Sections(d.locations))
  }

  lemma ComposeHead(d: Dataset, prefix: string)
    ensures var parts := Lead(prefix) + Sections(d.locations);
      && (prefix != "" ==> StartsWith(Join(" ", parts), prefix))
      && (prefix == "" && d.locations != [] ==>
            StartsWith(Join(" ", parts), LocationTag + d.locations[0].name))
  {
    var parts := Lead(prefix) + Sections(d.locations);
    if parts != [] {
      JoinStartsWithFirst(" ", parts);
      if prefix == "" && d.locations != [] {
        assert parts[0] == Section(d.locations[0]);
        StartsWithTrans(Join(" ", parts), parts[0], LocationTag + d.locations[0].name);
      }
    }
  }

  /** Every record's section appears in the prompt. */
  lemma SectionInPrompt(d: Dataset, prefix: string, i: nat)
    requires i < |d.locations|
    ensures Contains(Compose(d, prefix), Section(d.locations[i]))
  {
    var parts := Lead(prefix) + Sections(d.locations);
    var j := |Lead(prefix)| + i;
    SectionAt(d.locations, prefix, i);
    JoinContainsPart(" ", parts, j);
    var c := Compose(d, prefix);
    assert c == Join(" ", parts);
    assert Contains(c, parts[j]);
  }

  lemma SectionAt(locs: seq<LocationRecord>, prefix: string, i: nat)
    requires i < |locs|
    ensures var parts := Lead(prefix) + Sections(locs);
      |Lead(prefix)| + i < |parts| && parts[|Lead(prefix)| + i] == Section(locs[i])
  {
  }

  /** Adding a record to the dataset adds a space and its section to the end of the
      prompt; the very first section of an unprefixed prompt stands alone. */
  lemma ComposeSnoc(locs: seq<LocationRecord>, r: LocationRecord, prefix: string)
    ensures Compose(Dataset(locs + [r]), prefix)
      == if prefix == "" && locs == [] then Section(r)
         else Compose(Dataset(locs), prefix) + " " + Section(r)
  {
    var before := Lead(prefix) + Sections(locs);
    assert Lead(prefix) + Sections(locs + [r]) == before + [Section(r)];
    if before != [] {
      JoinSnoc(" ", before, Section(r));
    } else {
      assert before + [Section(r)] == [Section(r)];
    }
  }

  /** The unprefixed prompt for a single record is that record's section. */
  lemma ComposeSingle(r: LocationRecord)
    ensures Compose(Dataset([r]), "") == Section(r)
  {
    ComposeSnoc([], r, "");
    assert [] + [r] == [r];
  }
}

=== FILE: records.dfy ===
/** The records passed between the stages of the pipeline. */
module Records {
  import opened Wrappers
  import opened Text

  /** One location with its weather and wave facts, each fact `"key: value"`. */
  datatype LocationRecord = LocationRecord(name: string, weather: seq<string>, waves: seq<string>)

  /** The extractor's result, `{"locations": [...]}`. */
  datatype Dataset = Dataset(locations: seq<LocationRecord>)

  /** One location's narrative; `weather` and `waves` are the optional keys the
      response assembler attaches. */
  datatype Narrative = Narrative(
    location: string,
    narrative: string,
    weather: Option<seq<string>>,
    waves: Option<seq<string>>)

  /** A usable location name: non-empty and already stripped of whitespace. */
  predicate IsName(s: string) {
    s != "" && Strip(s) == s
  }

  /** What the primary pass is willing to emit: a name and at least one fact. */
  predicate Emittable(r: LocationRecord) {
    IsName(r.name) && (r.weather != [] || r.waves != [])
  }

  /** The names of a location list, in order. */
  function Names(locs: seq<LocationRecord>): (r: seq<string>)
    ensures |r| == |locs|
    ensures forall i :: 0 <= i < |locs| ==> r[i] == locs[i].name
  {
    seq(|locs|, i requires 0 <= i < |locs| => locs[i].name)
  }
}

=== FILE: scenarios.dfy ===
/** Worked examples of the narrative stages: concrete replies for two locations off
    Cape Cod, segmented, enriched and prompted for. */
module Scenarios {
  import opened Wrappers
  import opened Text
  import opened Records
  import opened Prompt
  import opened Segmenter
  import opened Assembler

  /** Cape Cod Bay as the flat object `{"waypoint": "Cape Cod Bay", "wind_speed":
      "12 knots", "wave_height": "3 feet"}` yields it (`Extraction.FlatObject`). */
  const Cape: LocationRecord :=
    LocationRecord("Cape Cod Bay", ["wind_speed: 12 knots"], ["wave_height: 3 feet"])

  const Georges: LocationRecord :=
    LocationRecord("Georges Bank", ["wind_speed: 25 knots"], ["wave_height: 8 feet"])

  /** The two locations. */
  const Banks: seq<LocationRecord> := [Cape, Georges]

  const Calm: string := "Calm seas."
  const Rough: string := "Rough seas."

  // ---- A reply with one heading line per location ----

  /** The reply, written line by line: `"Cape Cod Bay: Calm seas.\nGeorges Bank: Rough seas."`. */
  const BanksReply: string := CapeLine + "\n" + GeorgesLine

  const BanksNarratives: seq<Narrative> :=
    [Narrative("Cape Cod Bay", Calm, None, None), Narrative("Georges Bank", Rough, None, None)]

  lemma BankNames()
    ensures HeadingName("Cape Cod Bay") && HeadingName("Georges Bank")
    ensures HeadingText(Calm) && HeadingText(Rough)
  {
  }

  const CapeLine: string := "Cape Cod Bay" + ": " + Calm
  const GeorgesLine: string := "Georges Bank" + ": " + Rough

  lemma BanksLines()
    ensures HeadingOf(Banks, 0, Calm) == CapeLine && HeadingOf(Banks, 1, Rough) == GeorgesLine
  {
    assert Banks[0].name == "Cape Cod Bay" && Banks[1].name == "Georges Bank";
  }

  /** Georges Bank's line does not mention Cape Cod Bay: it has no `p` in either case. */
  lemma GeorgesLineMissesCape()
    ensures !NamedIn("Cape Cod Bay", GeorgesLine)
  {
    LowerOmits(GeorgesLine, 'p');
    assert Lower("Cape Cod Bay")[2] == 'p';
    MissingCharExcludes(Lower(GeorgesLine), Lower("Cape Cod Bay"), 'p');
  }

  lemma BanksReplyJoin()
    ensures Join("\n", [CapeLine, GeorgesLine]) == BanksReply
  {
    JoinTwo("\n", CapeLine, GeorgesLine);
  }

  lemma BanksReplyShape()
    ensures HeadingReply(Banks, [0, 1], [Calm, Rough])
    ensures Join("\n", HeadingLines(Banks, [0, 1], [Calm, Rough])) == BanksReply
  {
    BankNames();
    BanksLines();
    GeorgesLineMissesCape();
    assert HeadingLines(Banks, [0, 1], [Calm, Rough]) == [CapeLine, GeorgesLine];
    BanksReplyJoin();
  }

  /** Two heading lines give one narrative each, the headings cut away. */
  lemma BanksReplyScenario()
    ensures Segment(BanksReply, Banks) == BanksNarratives
  {
    BanksReplyParses();
    BanksExpected();
  }

  lemma BanksReplyParses()
    ensures Segment(BanksReply, Banks) == Expected(Banks, [0, 1], [Calm, Rough])
  {
    BanksReplyShape();
    HeadingReplyParses(Banks, [0, 1], [Calm, Rough]);
  }

  lemma BanksExpected()
    ensures Expected(Banks, [0, 1], [Calm, Rough]) == BanksNarratives
  {
  }

  // ---- The same location twice ----

  /** `"Cape Cod Bay: Calm seas.\nCape Cod Bay: Rough seas."` */
  const RepeatReply: string := CapeLine + "\n" + CapeRoughLine

  const CapeRoughLine: string := "Cape Cod Bay" + ": " + Rough

  lemma RepeatLines(locs: seq<LocationRecord>)
    requires |locs| >= 1 && locs[0] == Cape
    ensures HeadingLines(locs, [0, 0], [Calm, Rough]) == [CapeLine, CapeRoughLine]
    ensures HeadingReply(locs, [0, 0], [Calm, Rough])
  {
    BankNames();
    var a := HeadingOf(locs, 0, Calm);
    var b := HeadingOf(locs, 0, Rough);
    assert a == CapeLine && b == CapeRoughLine;
    var lines := HeadingLines(locs, [0, 0], [Calm, Rough]);
    assert lines[0] == a && lines[1] == b && |lines| == 2;
  }

  lemma RepeatReplyJoin()
    ensures Join("\n", [CapeLine, CapeRoughLine]) == RepeatReply
  {
    JoinTwo("\n", CapeLine, CapeRoughLine);
  }

  const CapeTwice: seq<Narrative> :=
    [Narrative("Cape Cod Bay", Calm, None, None), Narrative("Cape Cod Bay", Rough, None, None)]

  /** The repeated reply against any location list that starts with Cape Cod Bay. */
  lemma RepeatReplyParses(locs: seq<LocationRecord>)
    requires |locs| >= 1 && locs[0] == Cape
    ensures Segment(RepeatReply, locs) == CapeTwice
  {
    RepeatReplyParsesAs(locs);
    RepeatExpected(locs);
  }

  lemma RepeatExpected(locs: seq<LocationRecord>)
    requires |locs| >= 1 && locs[0] == Cape
    ensures Expected(locs, [0, 0], [Calm, Rough]) == CapeTwice
  {
  }

  lemma RepeatReplyParsesAs(locs: seq<LocationRecord>)
    requires |locs| >= 1 && locs[0] == Cape
    ensures Segment(RepeatReply, locs) == Expected(locs, [0, 0], [Calm, Rough])
  {
    RepeatLines(locs);
    RepeatReplyJoin();
    HeadingReplyParses(locs, [0, 0], [Calm, Rough]);
  }

  /** Every line naming a location opens a new section, so one location can receive two
      narratives and the result can outnumber the locations. */
  lemma RepeatReplyScenario()
    ensures Segment(RepeatReply, [Cape]) == CapeTwice
    ensures Segment(RepeatReply, Banks) == CapeTwice
  {
    RepeatReplyParses([Cape]);
    RepeatReplyParses(Banks);
  }

  // ---- A reply with no headings ----

  const ShortReply: string := "Calm. Rough."

  lemma ShortReplyShape()
    ensures "Calm" + ". " + "Rough" + "." == ShortReply
    ensures "Calm" + "." == "Calm." && "Rough" + "." == "Rough."
    ensures PlainSentence(Banks, "Calm") && PlainSentence(Banks, "Rough")
  {
    var r := "Calm" + ". " + "Rough" + ".";
    forall i | 0 <= i < |r| ensures r[i] == ShortReply[i] {}
    var c := "Calm" + ".";
    forall i | 0 <= i < |c| ensures c[i] == "Calm."[i] {}
    var g := "Rough" + ".";
    forall i | 0 <= i < |g| ensures g[i] == "Rough."[i] {}
  }

  /** Neither name occurs in the short reply: it has no `p` and no `e`. */
  lemma ShortReplyNamesNothing()
    ensures forall j :: 0 <= j < |Banks| ==> !NamedIn(Banks[j].name, ShortReply)
  {
    LowerOmits(ShortReply, 'p');
    assert Lower("Cape Cod Bay")[2] == 'p';
    MissingCharExcludes(Lower(ShortReply), Lower("Cape Cod Bay"), 'p');
    LowerOmits(ShortReply, 'e');
    assert Lower("Georges Bank")[1] == 'e';
    MissingCharExcludes(Lower(ShortReply), Lower("Georges Bank"), 'e');
  }

  /** With no line naming a location, the reply is shared out a sentence at a time and
      each share gets its full stop back. */
  lemma ShortReplyScenario()
    ensures Segment(ShortReply, Banks)
         == [Narrative("Cape Cod Bay", "Calm.", None, None), Narrative("Georges Bank", "Rough.", None, None)]
  {
    ShortReplyShape();
    ShortReplyNamesNothing();
    TwoSentences(Banks, "Calm", "Rough");
  }

  // ---- Assembling the response ----

  const BanksEnriched: seq<Narrative> := [
    Narrative("Cape Cod Bay", Calm, Some(["wind_speed: 12 knots"]), Some(["wave_height: 3 feet"])),
    Narrative("Georges Bank", Rough, Some(["wind_speed: 25 knots"]), Some(["wave_height: 8 feet"]))]

  /** Each narrative receives the facts of its own location. */
  lemma BanksResponseScenario()
    ensures var r := CreateResponse(BanksNarratives, "model", Some(Dataset(Banks)), "success", None, "t0");
      && r.narratives == BanksEnriched && r.locationsCount == 2
      && r.status == "success" && r.error.None?
  {
    var r := CreateResponse(BanksNarratives, "model", Some(Dataset(Banks)), "success", None, "t0");
    EnrichFirst(Banks, BanksNarratives[0], 0);
    assert "Cape Cod Bay" != "Georges Bank";
    EnrichFirst(Banks, BanksNarratives[1], 1);
    assert r.narratives[0] == BanksEnriched[0] && r.narratives[1] == BanksEnriched[1];
  }

  // ---- The prompt for the flat document ----

  /** The expected prompt, written piece by piece as the tags and facts appear. */
  const FlatPrompt: string :=
    "LOCATION: " + "Cape Cod Bay" + " WEATHER: " + "wind_speed: 12 knots" + " WAVES: " + "wave_height: 3 feet"

  /** Cape Cod Bay alone becomes one section, with both kinds of fact. */
  lemma FlatPromptScenario()
    ensures Compose(Dataset([Cape]), "") == FlatPrompt
  {
    ComposeSingle(Cape);
    FlatSection();
  }

  lemma FlatSection()
    ensures Section(Cape) == FlatPrompt
  {
    var s := Section(Cape);
    assert s == ("LOCATION: " + "Cape Cod Bay") + (" WEATHER: " + "wind_speed: 12 knots")
              + (" WAVES: " + "wave_height: 3 feet");
  }
}

=== FILE: segmenter.dfy ===
/** The narrative segmenter (`parse_location_narratives`, json_to_claude.py:183-269):
    a line-by-line pass that opens a section at every line naming a location, and a
    sentence-split fallback used when that pass finds nothing. */
module Segmenter {
  import opened Wrappers
  import opened Text
  import opened Records

  /** `name.lower() in line.lower()`. */
  predicate NamedIn(name: string, line: string) {
    Contains(Lower(line), Lower(name))
  }

  /** The first location from index `i` on whose name occurs in `line`, ignoring case. */
  function FirstNamed(locs: seq<LocationRecord>, line: string, i: nat): (r: Option<nat>)
    requires i <= |locs|
    ensures r.Some? ==> i <= r.value < |locs| && NamedIn(locs[r.value].name, line)
    ensures r.Some? ==> forall j :: i <= j < r.value ==> !NamedIn(locs[j].name, line)
    ensures r.None? ==> forall j :: i <= j < |locs| ==> !NamedIn(locs[j].name, line)
    decreases |locs| - i
  {
    if i == |locs| then None
    else if NamedIn(locs[i].name, line) then Some(i)
    else FirstNamed(locs, line, i + 1)
  }

  /** The location a line opens, if any. The search stops at the first location whose
      name occurs; an empty name occurs everywhere but, being falsy, opens nothing. */
  function Heading(locs: seq<LocationRecord>, line: string): (r: Option<string>)
    ensures r.Some? ==> r.value != "" && r.value in Names(locs) && NamedIn(r.value, line)
    ensures r.Some? ==> FirstNamed(locs, line, 0).Some? && r.value == locs[FirstNamed(locs, line, 0).value].name
    ensures (forall j :: 0 <= j < |locs| ==> !NamedIn(locs[j].name, line)) ==> r.None?
    ensures r.Some? <==> exists j :: 0 <= j < |locs| && NamedIn(locs[j].name, line)
                                && locs[j].name != ""
                                && forall j' :: 0 <= j' < j ==> !NamedIn(locs[j'].name, line)
  {
    match FirstNamed(locs, line, 0)
    case Some(k) =>
      assert Names(locs)[k] == locs[k].name;
      if locs[k].name != "" then Some(locs[k].name) else None
    case None => None
  }

  /** What follows a location name at the start of a line loses, in this order, its
      leading colons, its leading dashes, its leading whitespace, its leading colons
      again and its leading whitespace again. */
  function CutHeader(s: string): (r: string)
    ensures |r| <= |s|
    ensures r == [] || !IsSpace(r[0])
  {
    LStrip(LStripChar(LStrip(LStripChar(LStripChar(s, ':'), '-')), ':'))
  }

  /** `clean_narrative_line`: drop `**`, cut a leading location name (compared without
      case, cut by its length) with the punctuation after it, and strip. */
  function CleanLine(line: string, name: string): (r: string)
    ensures r == [] || (!IsSpace(r[0]) && !IsSpace(r[|r| - 1]))
  {
    var u := Unheaded(RemoveBold(line), name);
    StripEnds(u);
    Strip(u)
  }

  /** The line with a leading `name` cut off, punctuation included, when it starts so. */
  function Unheaded(l: string, name: string): string {
    if NameStarts(l, name) then CutHeader(l[|name|..]) else l
  }

  /** `text.lower().startswith(name.lower())`; the name is then no longer than the text. */
  predicate NameStarts(text: string, name: string)
    ensures NameStarts(text, name) ==> |name| <= |text|
  {
    var lt, ln := Lower(text), Lower(name);
    |ln| <= |lt| && lt[..|ln|] == ln
  }

  /** A `name: text` heading line cleans to `text`, provided neither part holds an
      asterisk and `text` is already trimmed and starts with neither `:` nor `-`. */
  lemma CleanHeading(name: string, text: string)
    requires '*' !in name && '*' !in text
    requires text != [] && !IsSpace(text[0]) && !IsSpace(text[|text| - 1])
    requires text[0] != ':' && text[0] != '-'
    ensures CleanLine(name + ": " + text, name) == text
  {
    var line := name + ": " + text;
    NotInHeading(name, text, '*');
    RemoveBoldKeeps(line);
    HeadingStarts(name, ": " + text);
    assert line == name + (": " + text);
    assert line[|name|..] == ": " + text;
    CutColonSpace(text);
    StripKeeps(text);
  }

  /** A character in neither part, nor the `": "` between them, is not in a heading. */
  lemma NotInHeading(name: string, text: string, ch: char)
    requires ch !in name && ch !in text && ch != ':' && ch != ' '
    ensures ch !in name + ": " + text
  {
    var line := name + ": " + text;
    forall i | 0 <= i < |line| ensures line[i] != ch {
      if i < |name| { assert line[i] == name[i]; }
      else if i >= |name| + 2 { assert line[i] == text[i - |name| - 2]; }
    }
  }

  lemma HeadingStarts(name: string, rest: string)
    ensures NameStarts(name + rest, name)
  {
    LowerAppend(name, rest);
    assert Lower(name + rest)[..|name|] == Lower(name);
  }

  /** `": text"` loses its colon and the space after it and nothing more. */
  lemma CutColonSpace(text: string)
    requires text != [] && !IsSpace(text[0]) && text[0] != ':' && text[0] != '-'
    ensures CutHeader(": " + text) == text
  {
    var s := ": " + text;
    assert s[1..] == " " + text;
    var a := LStripChar(s, ':');
    assert a == LStripChar(" " + text, ':');
    assert a == " " + text;
    var b := LStripChar(a, '-');
    assert b == " " + text;
    assert b[1..] == text;
    var c := LStrip(b);
    assert c == LStrip(text);
    assert c == text;
    var d := LStripChar(c, ':');
    assert d == text;
    assert LStrip(d) == text;
  }

  /** The segmenter's state between lines: the open location, the lines gathered for
      it, and the narratives already closed. */
  datatype Cursor = Cursor(current: Option<string>, buffer: seq<string>, done: seq<Narrative>)

  const Start: Cursor := Cursor(None, [], [])

  /** The narrative the open section would close with: none when no location is open
      or nothing was gathered for it. */
  function Pending(c: Cursor): seq<Narrative> {
    if c.current.Some? && c.buffer != [] then [Narrative(c.current.value, Join(" ", c.buffer), None, None)]
    else []
  }

  /** The narratives once the open section is closed. */
  function Flushed(c: Cursor): seq<Narrative> {
    c.done + Pending(c)
  }

  /** Every narrative belongs to a given location, by a non-empty name, with non-empty
      text, and carries no weather or wave data yet. */
  predicate NarrativesOk(locs: seq<LocationRecord>, ns: seq<Narrative>) {
    forall n | n in ns ::
      n.location in Names(locs) && n.location != "" && n.narrative != "" && n.weather.None? && n.waves.None?
  }

  predicate CursorOk(locs: seq<LocationRecord>, c: Cursor) {
    && (c.current.Some? ==> c.current.value in Names(locs) && c.current.value != "")
    && (forall t | t in c.buffer :: t != "")
    && NarrativesOk(locs, c.done)
  }

  lemma FlushedOk(locs: seq<LocationRecord>, c: Cursor)
    ensures CursorOk(locs, c) ==> NarrativesOk(locs, Flushed(c))
  {
    if CursorOk(locs, c) && c.current.Some? && c.buffer != [] {
      assert c.buffer[0] in c.buffer;
      JoinNonEmpty(" ", c.buffer);
    }
  }

  /** One line of the reply. A blank line is skipped; a line naming a location closes
      the open section and opens that location's, seeded with the cleaned line when
      anything is left of it; any other line joins the open section, if there is one. */
  function Step(locs: seq<LocationRecord>, c: Cursor, raw: string): (d: Cursor)
    ensures CursorOk(locs, c) ==> CursorOk(locs, d)
    ensures |d.done| >= |c.done| && d.done[..|c.done|] == c.done
  {
    var line := Strip(raw);
    if line == "" then c
    else match Heading(locs, line)
      case Some(name) => Open(locs, c, line, name)
      case None => Continue(locs, c, line)
  }

  /** A line naming no location: it joins the open section, if there is one. */
  function Continue(locs: seq<LocationRecord>, c: Cursor, line: string): (d: Cursor)
    requires line != ""
    ensures CursorOk(locs, c) ==> CursorOk(locs, d)
    ensures d.done == c.done && d.current == c.current
  {
    if c.current.Some? then c.(buffer := c.buffer + [line]) else c
  }

  /** A heading line for `name`: the open section is closed and `name`'s opened,
      seeded with what is left of the line once the heading is cut away. */
  function Open(locs: seq<LocationRecord>, c: Cursor, line: string, name: string): (d: Cursor)
    requires name in Names(locs) && name != ""
    ensures CursorOk(locs, c) ==> CursorOk(locs, d)
    ensures d.current == Some(name) && d.done == Flushed(c)
  {
    FlushedOk(locs, c);
    var t := CleanLine(line, name);
    Cursor(Some(name), if t != "" then [t] else [], Flushed(c))
  }

  /** The lines in order. */
  function Run(locs: seq<LocationRecord>, c: Cursor, lines: seq<string>): (d: Cursor)
    ensures CursorOk(locs, c) ==> CursorOk(locs, d)
    decreases |lines|
  {
    if lines == [] then c else Run(locs, Step(locs, c, lines[0]), lines[1..])
  }

  lemma {:induction false} RunAppend(locs: seq<LocationRecord>, c: Cursor, a: seq<string>, b: seq<string>)
    ensures Run(locs, c, a + b) == Run(locs, Run(locs, c, a), b)
    decreases |a|
  {
    if a != [] {
      assert (a + b)[0] == a[0];
      assert (a + b)[1..] == a[1..] + b;
      RunAppend(locs, Step(locs, c, a[0]), a[1..], b);
    } else {
      assert a + b == b;
    }
  }

  /** The narratives the line pass finds. */
  function Scan(locs: seq<LocationRecord>, lines: seq<string>): (r: seq<Narrative>)
    ensures NarrativesOk(locs, r)
  {
    var c := Run(locs, Start, lines);
    FlushedOk(locs, c);
    Flushed(c)
  }

  /** The reply's lines: the stripped reply split at each newline. */
  function Lines(reply: string): seq<string> {
    Split(Strip(reply), '\n')
  }

  /** The line pass over a reply. */
  function Primary(reply: string, locs: seq<LocationRecord>): (r: seq<Narrative>)
    ensures NarrativesOk(locs, r)
  {
    Scan(locs, Lines(reply))
  }

  /** With no locations nothing opens a section, so the line pass finds nothing. */
  lemma {:induction false} RunWithoutLocations(c: Cursor, lines: seq<string>)
    requires c == Start
    ensures Run([], c, lines) == Start
    decreases |lines|
  {
    if lines != [] {
      assert Step([], c, lines[0]) == Start;
      RunWithoutLocations(Step([], c, lines[0]), lines[1..]);
    }
  }

  /** A line that is blank or names no location, read before any section is open,
      changes nothing. */
  predicate Ignored(locs: seq<LocationRecord>, raw: string) {
    Strip(raw) == "" || Heading(locs, Strip(raw)).None?
  }

  /** Lines before the first one naming a location are dropped. */
  lemma {:induction false} LeadingLinesDropped(locs: seq<LocationRecord>, pre: seq<string>, rest: seq<string>)
    requires forall i :: 0 <= i < |pre| ==> Ignored(locs, pre[i])
    ensures Scan(locs, pre + rest) == Scan(locs, rest)
  {
    RunAppend(locs, Start, pre, rest);
    RunIgnored(locs, pre);
  }

  lemma {:induction false} RunIgnored(locs: seq<LocationRecord>, pre: seq<string>)
    requires forall i :: 0 <= i < |pre| ==> Ignored(locs, pre[i])
    ensures Run(locs, Start, pre) == Start
    decreases |pre|
  {
    if pre != [] {
      assert Step(locs, Start, pre[0]) == Start;
      assert forall i :: 0 <= i < |pre[1..]| ==> Ignored(locs, pre[1..][i]) by {
        forall i | 0 <= i < |pre[1..]| ensures Ignored(locs, pre[1..][i]) {
          assert pre[1..][i] == pre[i + 1];
        }
      }
      RunIgnored(locs, pre[1..]);
    }
  }

  /** A trimmed line naming no location, read while a section is open, joins that
      section's lines. */
  lemma BodyStep(locs: seq<LocationRecord>, c: Cursor, a: string)
    requires Trimmed(a) && c.current.Some?
    requires forall j :: 0 <= j < |locs| ==> !NamedIn(locs[j].name, a)
    ensures Step(locs, c, a) == c.(buffer := c.buffer + [a])
  {
    StripKeeps(a);
  }

  /** A bold heading `**name**` on a line of its own opens the location with nothing
      gathered yet; the two lines after it become its narrative, joined by a space. */
  lemma BoldHeadingThenBody(l: LocationRecord, a: string, b: string)
    requires HeadingName(l.name)
    requires Trimmed(a) && !NamedIn(l.name, a)
    requires Trimmed(b) && !NamedIn(l.name, b)
    ensures Scan([l], ["**" + l.name + "**", a, b]) == [Narrative(l.name, a + " " + b, None, None)]
  {
    var two := Cursor(Some(l.name), [a, b], []);
    BoldThenTwo(l, a, b);
    assert Join(" ", [a, b]) == a + " " + Join(" ", [b]);
    assert Flushed(two) == [] + [Narrative(l.name, a + " " + b, None, None)];
  }

  lemma BoldThenTwo(l: LocationRecord, a: string, b: string)
    requires HeadingName(l.name)
    requires Trimmed(a) && !NamedIn(l.name, a)
    requires Trimmed(b) && !NamedIn(l.name, b)
    ensures Run([l], Start, ["**" + l.name + "**", a, b]) == Cursor(Some(l.name), [a, b], [])
  {
    var lines := ["**" + l.name + "**", a, b];
    var head := Cursor(Some(l.name), [], []);
    BoldStep(l, Start);
    assert Flushed(Start) == [];
    assert lines[1..] == [a, b];
    RunCons([l], Start, lines, head);
    TwoBodyLines([l], l.name, a, b);
  }

  /** Two body lines read into a freshly opened section are its two lines. */
  lemma TwoBodyLines(locs: seq<LocationRecord>, name: string, a: string, b: string)
    requires Trimmed(a) && forall j :: 0 <= j < |locs| ==> !NamedIn(locs[j].name, a)
    requires Trimmed(b) && forall j :: 0 <= j < |locs| ==> !NamedIn(locs[j].name, b)
    ensures Run(locs, Cursor(Some(name), [], []), [a, b]) == Cursor(Some(name), [a, b], [])
  {
    var head := Cursor(Some(name), [], []);
    var one := Cursor(Some(name), [a], []);
    var two := Cursor(Some(name), [a, b], []);
    BodyStep(locs, head, a);
    assert head.(buffer := head.buffer + [a]) == one;
    BodyStep(locs, one, b);
    assert one.(buffer := one.buffer + [b]) == two;
    assert [a, b][1..] == [b] && [b][1..] == [];
    RunCons(locs, head, [a, b], one);
    RunCons(locs, one, [b], two);
  }

  /** `**name**` on its own line opens the location with nothing gathered yet. */
  lemma BoldStep(l: LocationRecord, c: Cursor)
    requires HeadingName(l.name)
    ensures Step([l], c, "**" + l.name + "**") == Cursor(Some(l.name), [], Flushed(c))
  {
    var name := l.name;
    var line := "**" + name + "**";
    assert line[0] == '*' && line[|line| - 1] == '*';
    StripKeeps(line);
    BoldNames(name);
    assert FirstNamed([l], line, 0) == Some(0);
    assert Heading([l], line) == Some(name);
    BoldCleansAway(name);
  }

  /** A name occurs in itself wrapped in bold markers. */
  lemma BoldNames(name: string)
    ensures NamedIn(name, "**" + name + "**")
  {
    var line := "**" + name + "**";
    var low, sub := Lower(line), Lower(name);
    forall k | 0 <= k < |name| ensures low[k + 2] == sub[k] {
      assert line[k + 2] == name[k];
    }
    assert low[2..2 + |sub|] == sub;
    assert OccursAt(low, sub, 2);
    ContainsIff(low, sub);
  }

  /** Cleaning `**name**` for `name` leaves nothing. */
  lemma BoldCleansAway(name: string)
    requires '*' !in name
    ensures CleanLine("**" + name + "**", name) == ""
  {
    BoldRemoved(name);
    HeadingStarts(name, "");
    assert name + "" == name;
    assert name[|name|..] == "";
  }

  /** A heading line whose cleaned text is empty, followed directly by another heading,
      leaves no narrative for its location. */
  lemma BareHeadingLost(locs: seq<LocationRecord>, c: Cursor, bare: string, next: string)
    requires Strip(bare) != "" && Heading(locs, Strip(bare)).Some?
    requires CleanLine(Strip(bare), Heading(locs, Strip(bare)).value) == ""
    requires Strip(next) != "" && Heading(locs, Strip(next)).Some?
    ensures Step(locs, Step(locs, c, bare), next).done == Flushed(c)
  {
  }

  /** A line that opens location `k` and cleans to the non-empty `text`. */
  predicate WellFormedHeading(locs: seq<LocationRecord>, line: string, k: nat, text: string) {
    && k < |locs|
    && Strip(line) == line
    && Heading(locs, line) == Some(locs[k].name)
    && CleanLine(line, locs[k].name) == text
    && text != ""
  }

  /** Reading `line` closes whatever section is open and opens location `k` holding
      exactly `text`, whatever state the segmenter is in. */
  ghost predicate Opens(locs: seq<LocationRecord>, line: string, k: nat, text: string) {
    k < |locs| && forall c :: Step(locs, c, line) == Cursor(Some(locs[k].name), [text], Flushed(c))
  }

  /** Every line opens location `keys[j]` and cleans to `texts[j]`. */
  ghost predicate Headings(locs: seq<LocationRecord>, lines: seq<string>, keys: seq<nat>, texts: seq<string>)
    decreases |lines|
  {
    && |lines| == |keys| == |texts|
    && (lines != [] ==>
          && Opens(locs, lines[0], keys[0], texts[0])
          && Headings(locs, lines[1..], keys[1..], texts[1..]))
  }

  /** The narratives a run of well-formed headings stands for. */
  function Expected(locs: seq<LocationRecord>, keys: seq<nat>, texts: seq<string>): (r: seq<Narrative>)
    requires |keys| == |texts| && forall j :: 0 <= j < |keys| ==> keys[j] < |locs|
    ensures |r| == |keys|
    ensures forall j :: 0 <= j < |keys| ==> r[j] == Narrative(locs[keys[j]].name, texts[j], None, None)
  {
    seq(|keys|, j requires 0 <= j < |keys| => Narrative(locs[keys[j]].name, texts[j], None, None))
  }

  /** Each well-formed heading closes the section before it and opens one holding
      exactly its text. */
  lemma {:induction false} HeadingsRun(locs: seq<LocationRecord>, c: Cursor, lines: seq<string>,
                                       keys: seq<nat>, texts: seq<string>)
    requires forall j :: 0 <= j < |keys| ==> keys[j] < |locs|
    requires Headings(locs, lines, keys, texts)
    ensures Flushed(Run(locs, c, lines)) == Flushed(c) + Expected(locs, keys, texts)
    decreases |lines|
  {
    if lines == [] {
      assert Expected(locs, keys, texts) == [];
    } else {
      var n := Narrative(locs[keys[0]].name, texts[0], None, None);
      var d := Cursor(Some(locs[keys[0]].name), [texts[0]], Flushed(c));
      assert Step(locs, c, lines[0]) == d;
      RunCons(locs, c, lines, d);
      HeadingsRun(locs, d, lines[1..], keys[1..], texts[1..]);
      ExpectedCons(locs, keys, texts);
      assert Join(" ", [texts[0]]) == texts[0];
      assert Flushed(d) == Flushed(c) + [n];
      AppendAssoc(Flushed(c), [n], Expected(locs, keys[1..], texts[1..]));
    }
  }

  lemma RunCons(locs: seq<LocationRecord>, c: Cursor, lines: seq<string>, d: Cursor)
    requires lines != [] && Step(locs, c, lines[0]) == d
    ensures Run(locs, c, lines) == Run(locs, d, lines[1..])
  {
  }

  lemma ExpectedCons(locs: seq<LocationRecord>, keys: seq<nat>, texts: seq<string>)
    requires |keys| == |texts| > 0 && forall j :: 0 <= j < |keys| ==> keys[j] < |locs|
    ensures Expected(locs, keys, texts)
         == [Narrative(locs[keys[0]].name, texts[0], None, None)] + Expected(locs, keys[1..], texts[1..])
  {
    var e := Expected(locs, keys[1..], texts[1..]);
    assert forall j :: 0 <= j < |e| ==> e[j] == Expected(locs, keys, texts)[j + 1];
  }

  /** A well-formed heading closes the open section and opens its own with its text. */
  lemma StepHeading(locs: seq<LocationRecord>, c: Cursor, line: string, k: nat, text: string)
    requires WellFormedHeading(locs, line, k, text)
    ensures Step(locs, c, line) == Cursor(Some(locs[k].name), [text], Flushed(c))
  {
    assert Strip(line) == line && line != "";
    assert Heading(locs, line) == Some(locs[k].name);
    assert Join(" ", [text]) == text;
  }

  /** A well-formed heading line opens its location from any state. */
  lemma HeadingOpens(locs: seq<LocationRecord>, line: string, k: nat, text: string)
    requires WellFormedHeading(locs, line, k, text)
    ensures Opens(locs, line, k, text)
  {
    forall c: Cursor ensures Step(locs, c, line) == Cursor(Some(locs[k].name), [text], Flushed(c)) {
      StepHeading(locs, c, line, k, text);
    }
  }

  /** A reply made of well-formed heading lines parses back into one narrative per
      line, in order: the same location may come back more than once. */
  lemma HeadingsParse(locs: seq<LocationRecord>, lines: seq<string>, keys: seq<nat>, texts: seq<string>)
    requires forall j :: 0 <= j < |keys| ==> keys[j] < |locs|
    requires Headings(locs, lines, keys, texts)
    ensures Scan(locs, lines) == Expected(locs, keys, texts)
  {
    HeadingsRun(locs, Start, lines, keys, texts);
    assert Flushed(Start) == [];
  }

  // ---- Sentence-split fallback (json_to_claude.py:246-267) ----

  /** `reply.split('.')`, on the reply as received, not stripped. */
  function Sentences(reply: string): (r: seq<string>)
    ensures |r| >= 1
  {
    Split(reply, '.')
  }

  /** Sentences per location: `max(1, n // L)`. */
  function Chunk(n: nat, l: nat): (k: nat)
    requires l > 0
    ensures k >= 1
    ensures n >= l ==> k * l <= n < k * l + l
    ensures n < l ==> k == 1
  {
    if n / l >= 1 then n / l else 1
  }

  /** The slice `s[a:b]` for `0 <= a <= b`, clamped to the list as Python clamps it. */
  function Window(s: seq<string>, a: nat, b: nat): (w: seq<string>)
    requires a <= b
    ensures |w| <= b - a
    ensures a < |s| ==> |w| == (if b <= |s| then b else |s|) - a
    ensures forall j :: 0 <= j < |w| ==> a + j < |s| && w[j] == s[a + j]
  {
    var lo := if a <= |s| then a else |s|;
    var hi := if b <= |s| then b else |s|;
    s[lo..hi]
  }

  /** The first location from index `i` on whose name starts `text`, ignoring case. */
  function FirstPrefix(locs: seq<LocationRecord>, text: string, i: nat): (r: Option<nat>)
    requires i <= |locs|
    ensures r.Some? ==> i <= r.value < |locs| && StartsWith(Lower(text), Lower(locs[r.value].name))
    ensures r.Some? ==> forall j :: i <= j < r.value ==> !StartsWith(Lower(text), Lower(locs[j].name))
    ensures r.None? ==> forall j :: i <= j < |locs| ==> !StartsWith(Lower(text), Lower(locs[j].name))
    decreases |locs| - i
  {
    if i == |locs| then None
    else if StartsWith(Lower(text), Lower(locs[i].name)) then Some(i)
    else FirstPrefix(locs, text, i + 1)
  }

  /** The fallback's cleaning: drop `**`, then cut the first location name that starts
      the text (any location, not only the one the text is for). */
  function Tidy(locs: seq<LocationRecord>, text: string): string {
    var t := RemoveBold(text);
    match FirstPrefix(locs, t, 0)
    case Some(j) => CutHeader(t[|locs[j].name|..])
    case None => t
  }

  /** A full stop is added unless the text already ends with one. */
  function Close(t: string): (r: string)
    ensures EndsWith(r, ".")
    ensures StartsWith(r, t) && |r| <= |t| + 1
    ensures EndsWith(t, ".") ==> r == t
  {
    if EndsWith(t, ".") then t else t + "."
  }

  /** The fallback narrative for location `i`: its window of sentences, joined back with
      full stops and stripped; none when that is blank. */
  function FallbackRecord(sents: seq<string>, locs: seq<LocationRecord>, k: nat, i: nat): (r: Option<Narrative>)
    requires i < |locs|
    ensures r.Some? ==> r.value.location == locs[i].name && EndsWith(r.value.narrative, ".")
    ensures r.Some? ==> r.value.weather.None? && r.value.waves.None?
    ensures r.None? <==> Strip(Join(".", Window(sents, i * k, i * k + k))) == ""
  {
    var raw := Strip(Join(".", Window(sents, i * k, i * k + k)));
    if raw == "" then None else Some(Narrative(locs[i].name, Close(Tidy(locs, raw)), None, None))
  }

  /** Location `i`'s narrative depends on its own window of sentences and on nothing
      else in the reply. */
  lemma FallbackLocal(s1: seq<string>, s2: seq<string>, locs: seq<LocationRecord>, k: nat, i: nat)
    requires i < |locs|
    requires Window(s1, i * k, i * k + k) == Window(s2, i * k, i * k + k)
    ensures FallbackRecord(s1, locs, k, i) == FallbackRecord(s2, locs, k, i)
  {
  }

  /** Which locations receive a fallback narrative. */
  function Keeps(sents: seq<string>, locs: seq<LocationRecord>, k: nat): (f: seq<bool>)
    ensures |f| == |locs|
    ensures forall i :: 0 <= i < |locs| ==> f[i] == FallbackRecord(sents, locs, k, i).Some?
  {
    seq(|locs|, i requires 0 <= i < |locs| => FallbackRecord(sents, locs, k, i).Some?)
  }

  /** The indices from `i` on whose flag is set, in increasing order. */
  function Slots(flags: seq<bool>, i: nat): (s: seq<nat>)
    requires i <= |flags|
    ensures forall j :: 0 <= j < |s| ==> i <= s[j] < |flags| && flags[s[j]]
    ensures forall j, j' :: 0 <= j < j' < |s| ==> s[j] < s[j']
    decreases |flags| - i
  {
    if i == |flags| then []
    else
      var rest := Slots(flags, i + 1);
      if flags[i] then [i] + rest else rest
  }

  /** No flagged index is skipped. */
  lemma {:induction false} SlotsComplete(flags: seq<bool>, i: nat)
    requires i <= |flags|
    ensures forall m :: i <= m < |flags| && flags[m] ==> m in Slots(flags, i)
    decreases |flags| - i
  {
    if i < |flags| {
      SlotsComplete(flags, i + 1);
    }
  }

  /** The fallback: one narrative per location whose window is not blank, in location
      order, each ending with a full stop. */
  function Fallback(reply: string, locs: seq<LocationRecord>): (r: seq<Narrative>)
    requires locs != []
    ensures |r| <= |locs|
    ensures var sents := Sentences(reply);
      var k := Chunk(|sents|, |locs|);
      var s := Slots(Keeps(sents, locs, k), 0);
      |r| == |s| && forall j :: 0 <= j < |r| ==> r[j] == FallbackRecord(sents, locs, k, s[j]).value
    ensures forall j :: 0 <= j < |r| ==> r[j].location in Names(locs) && EndsWith(r[j].narrative, ".")
  {
    var sents := Sentences(reply);
    var k := Chunk(|sents|, |locs|);
    SlotsKept(sents, locs, k);
    Gather(sents, locs, k, Slots(Keeps(sents, locs, k), 0))
  }

  /** The slots are at most as many as the locations, each a location index whose
      fallback narrative exists. */
  lemma SlotsKept(sents: seq<string>, locs: seq<LocationRecord>, k: nat)
    ensures var s := Slots(Keeps(sents, locs, k), 0);
      && |s| <= |locs|
      && forall j :: 0 <= j < |s| ==> s[j] < |locs| && FallbackRecord(sents, locs, k, s[j]).Some?
  {
    StrictlyIncreasingBound(Slots(Keeps(sents, locs, k), 0), |locs|);
  }

  /** The narratives of the given slots, in slot order. */
  function Gather(sents: seq<string>, locs: seq<LocationRecord>, k: nat, s: seq<nat>): (r: seq<Narrative>)
    requires forall j :: 0 <= j < |s| ==> s[j] < |locs| && FallbackRecord(sents, locs, k, s[j]).Some?
    ensures |r| == |s| && forall j :: 0 <= j < |r| ==> r[j] == FallbackRecord(sents, locs, k, s[j]).value
    ensures forall j :: 0 <= j < |r| ==> r[j].location in Names(locs) && EndsWith(r[j].narrative, ".")
  {
    var r := seq(|s|, j requires 0 <= j < |s| => FallbackRecord(sents, locs, k, s[j]).value);
    forall j | 0 <= j < |r| ensures r[j].location in Names(locs) && EndsWith(r[j].narrative, ".") {
      RecordNamed(sents, locs, k, s[j]);
    }
    r
  }

  lemma RecordNamed(sents: seq<string>, locs: seq<LocationRecord>, k: nat, i: nat)
    requires i < |locs| && FallbackRecord(sents, locs, k, i).Some?
    ensures var n := FallbackRecord(sents, locs, k, i).value;
      n.location in Names(locs) && EndsWith(n.narrative, ".")
  {
    assert Names(locs)[i] == locs[i].name;
  }

  /** A strictly increasing list of indices below `n` has at most `n` entries. */
  lemma {:induction false} StrictlyIncreasingBound(s: seq<nat>, n: nat)
    requires forall j :: 0 <= j < |s| ==> s[j] < n
    requires forall j, j' :: 0 <= j < j' < |s| ==> s[j] < s[j']
    ensures |s| <= n
    decreases |s|
  {
    if s != [] {
      var last := s[|s| - 1];
      var init := s[..|s| - 1];
      assert forall j :: 0 <= j < |init| ==> init[j] < last by {
        forall j | 0 <= j < |init| ensures init[j] < last {
          assert init[j] == s[j];
        }
      }
      StrictlyIncreasingBound(init, last);
    }
  }

  /** `parse_location_narratives`: the line pass, or the fallback when the line pass
      finds nothing and there are locations to share the reply among. */
  function Segment(reply: string, locs: seq<LocationRecord>): (r: seq<Narrative>)
    ensures locs == [] ==> r == []
    ensures Primary(reply, locs) != [] ==> r == Primary(reply, locs)
    ensures Primary(reply, locs) == [] && locs != [] ==> r == Fallback(reply, locs)
    ensures forall j :: 0 <= j < |r| ==> r[j].location in Names(locs)
  {
    if locs == [] then
      RunWithoutLocations(Start, Lines(reply));
      []
    else
      var p := Primary(reply, locs);
      assert forall j :: 0 <= j < |p| ==> p[j] in p;
      if p != [] then p else Fallback(reply, locs)
  }

  // ---- Replies of a known shape ----

  /** A location name that can head a line: trimmed, with no asterisk or newline. */
  predicate HeadingName(n: string) {
    Trimmed(n) && '*' !in n && '\n' !in n
  }

  /** Text that can follow `name: ` on a heading line and survive cleaning unchanged. */
  predicate HeadingText(t: string) {
    Trimmed(t) && '*' !in t && '\n' !in t && t[0] != ':' && t[0] != '-'
  }

  /** `name: text` for location `k` is a well-formed heading, provided no earlier
      location's name occurs in it. */
  lemma HeadingLine(locs: seq<LocationRecord>, k: nat, text: string)
    requires k < |locs| && HeadingName(locs[k].name) && HeadingText(text)
    requires forall j :: 0 <= j < k ==> !NamedIn(locs[j].name, locs[k].name + ": " + text)
    ensures var line := locs[k].name + ": " + text;
      WellFormedHeading(locs, line, k, text) && Trimmed(line) && '\n' !in line
  {
    var name := locs[k].name;
    var line := name + ": " + text;
    assert line[0] == name[0] && line[|line| - 1] == text[|text| - 1];
    StripKeeps(line);
    NotInHeading(name, text, '\n');
    HeadingStarts(name, ": " + text);
    assert line == name + (": " + text);
    PrefixContains(Lower(line), Lower(name));
    var f := FirstNamed(locs, line, 0);
    assert f == Some(k);
    CleanHeading(name, text);
  }

  /** The heading line `name: text` for location `k` opens that location with `text`. */
  lemma HeadingLineOpens(locs: seq<LocationRecord>, k: nat, text: string)
    requires k < |locs| && HeadingName(locs[k].name) && HeadingText(text)
    requires forall j :: 0 <= j < k ==> !NamedIn(locs[j].name, locs[k].name + ": " + text)
    ensures var line := locs[k].name + ": " + text;
      Opens(locs, line, k, text) && Trimmed(line) && '\n' !in line
  {
    HeadingLine(locs, k, text);
    HeadingOpens(locs, locs[k].name + ": " + text, k, text);
  }

  /** The heading line for location `k`. */
  function HeadingOf(locs: seq<LocationRecord>, k: nat, text: string): string
    requires k < |locs|
  {
    locs[k].name + ": " + text
  }

  /** One heading line per entry, in order. */
  function HeadingLines(locs: seq<LocationRecord>, keys: seq<nat>, texts: seq<string>): (r: seq<string>)
    requires |keys| == |texts| && forall j :: 0 <= j < |keys| ==> keys[j] < |locs|
    ensures |r| == |keys|
    ensures forall j :: 0 <= j < |keys| ==> r[j] == HeadingOf(locs, keys[j], texts[j])
  {
    seq(|keys|, j requires 0 <= j < |keys| => HeadingOf(locs, keys[j], texts[j]))
  }

  /** Heading lines each naming their own location before any earlier one. */
  predicate HeadingReply(locs: seq<LocationRecord>, keys: seq<nat>, texts: seq<string>) {
    && |keys| == |texts|
    && (forall j :: 0 <= j < |keys| ==> keys[j] < |locs| && HeadingName(locs[keys[j]].name) && HeadingText(texts[j]))
    && (forall j, i :: 0 <= j < |keys| && 0 <= i < keys[j] ==>
          !NamedIn(locs[i].name, HeadingOf(locs, keys[j], texts[j])))
  }

  /** A reply made of heading lines `name: text`, one per entry and joined by newlines,
      parses back into exactly those entries, in order; a location may occur more than
      once, so the result can be longer than the location list. */
  lemma HeadingReplyParses(locs: seq<LocationRecord>, keys: seq<nat>, texts: seq<string>)
    requires |keys| >= 1 && HeadingReply(locs, keys, texts)
    ensures Segment(Join("\n", HeadingLines(locs, keys, texts)), locs) == Expected(locs, keys, texts)
  {
    var lines := HeadingLines(locs, keys, texts);
    forall j | 0 <= j < |lines|
      ensures Opens(locs, lines[j], keys[j], texts[j]) && Trimmed(lines[j]) && '\n' !in lines[j]
    {
      HeadingLineOpens(locs, keys[j], texts[j]);
    }
    HeadingsFromOpens(locs, lines, keys, texts);
    HeadingsParse(locs, lines, keys, texts);
    JoinedLines(lines);
    assert Expected(locs, keys, texts)[0] in Expected(locs, keys, texts);
    SegmentByLines(Join("\n", lines), locs, lines, Expected(locs, keys, texts));
  }

  lemma {:induction false} HeadingsFromOpens(locs: seq<LocationRecord>, lines: seq<string>,
                                             keys: seq<nat>, texts: seq<string>)
    requires |lines| == |keys| == |texts|
    requires forall j :: 0 <= j < |lines| ==> Opens(locs, lines[j], keys[j], texts[j])
    ensures Headings(locs, lines, keys, texts)
    decreases |lines|
  {
    if lines != [] {
      assert Opens(locs, lines[0], keys[0], texts[0]);
      forall j | 0 <= j < |lines| - 1 ensures Opens(locs, lines[1..][j], keys[1..][j], texts[1..][j]) {
        assert Opens(locs, lines[j + 1], keys[j + 1], texts[j + 1]);
      }
      HeadingsFromOpens(locs, lines[1..], keys[1..], texts[1..]);
    }
  }

  /** Trimmed newline-free lines joined by newlines are the reply's lines again. */
  lemma JoinedLines(lines: seq<string>)
    requires |lines| >= 1 && forall j :: 0 <= j < |lines| ==> Trimmed(lines[j]) && '\n' !in lines[j]
    ensures Lines(Join("\n", lines)) == lines
  {
    var reply := Join("\n", lines);
    JoinStartsWithFirst("\n", lines);
    JoinEndsWithLast("\n", lines);
    assert reply[0] == lines[0][0];
    StripKeeps(reply);
    JoinThenSplit(lines, '\n');
  }

  /** When the line pass finds something, that is the result. */
  lemma SegmentByLines(reply: string, locs: seq<LocationRecord>, lines: seq<string>, r: seq<Narrative>)
    requires Lines(reply) == lines && Scan(locs, lines) == r && r != []
    ensures Segment(reply, locs) == r
  {
  }

  /** When the line pass finds nothing, the fallback decides. */
  lemma SegmentByFallback(reply: string, locs: seq<LocationRecord>, r: seq<Narrative>)
    requires locs != [] && Primary(reply, locs) == [] && Fallback(reply, locs) == r
    ensures Segment(reply, locs) == r
  {
  }

  /** Text the fallback keeps as it is, apart from the full stop it adds. */
  predicate PlainSentence(locs: seq<LocationRecord>, s: string) {
    && Trimmed(s) && '.' !in s && '*' !in s && '\n' !in s
    && forall j :: 0 <= j < |locs| ==> !NameStarts(s, locs[j].name)
  }

  /** A reply of two sentences naming no location falls back to one sentence per
      location, each closed with a full stop. */
  lemma TwoSentences(locs: seq<LocationRecord>, a: string, b: string)
    requires |locs| == 2 && PlainSentence(locs, a) && PlainSentence(locs, b)
    requires forall j :: 0 <= j < |locs| ==> !NamedIn(locs[j].name, a + ". " + b + ".")
    ensures Segment(a + ". " + b + ".", locs)
         == [Narrative(locs[0].name, a + ".", None, None), Narrative(locs[1].name, b + ".", None, None)]
  {
    ReplyNamesNothing(locs, a, b);
    TwoFallback(locs, a, b);
    SegmentByFallback(a + ". " + b + ".", locs,
      [Narrative(locs[0].name, a + ".", None, None), Narrative(locs[1].name, b + ".", None, None)]);
  }

  lemma TwoFallback(locs: seq<LocationRecord>, a: string, b: string)
    requires |locs| == 2 && PlainSentence(locs, a) && PlainSentence(locs, b)
    ensures Fallback(a + ". " + b + ".", locs)
         == [Narrative(locs[0].name, a + ".", None, None), Narrative(locs[1].name, b + ".", None, None)]
  {
    var sents := [a, " " + b, ""];
    SentencesOfTwo(a, b);
    assert Chunk(|sents|, |locs|) == 1;
    TwoRecords(locs, a, b);
    KeepsTwo(locs, sents);
    SlotsTwo();
    FallbackTwo(a + ". " + b + ".", locs,
      Narrative(locs[0].name, a + ".", None, None), Narrative(locs[1].name, b + ".", None, None));
  }

  lemma TwoRecords(locs: seq<LocationRecord>, a: string, b: string)
    requires |locs| == 2 && PlainSentence(locs, a) && PlainSentence(locs, b)
    ensures FallbackRecord([a, " " + b, ""], locs, 1, 0) == Some(Narrative(locs[0].name, a + ".", None, None))
    ensures FallbackRecord([a, " " + b, ""], locs, 1, 1) == Some(Narrative(locs[1].name, b + ".", None, None))
  {
    var sents := [a, " " + b, ""];
    assert |sents| == 3 && sents[0] == a && sents[1] == " " + b;
    FirstOfTwo(locs, a, sents);
    SecondOfTwo(locs, b, sents);
  }

  lemma FirstOfTwo(locs: seq<LocationRecord>, a: string, sents: seq<string>)
    requires |locs| == 2 && PlainSentence(locs, a) && |sents| == 3 && sents[0] == a
    ensures FallbackRecord(sents, locs, 1, 0) == Some(Narrative(locs[0].name, a + ".", None, None))
  {
    StripKeeps(a);
    FallbackOne(locs, sents, 0, a, a);
  }

  lemma SecondOfTwo(locs: seq<LocationRecord>, b: string, sents: seq<string>)
    requires |locs| == 2 && PlainSentence(locs, b) && |sents| == 3 && sents[1] == " " + b
    ensures FallbackRecord(sents, locs, 1, 1) == Some(Narrative(locs[1].name, b + ".", None, None))
  {
    StripLeadingSpace(b);
    FallbackOne(locs, sents, 1, " " + b, b);
  }

  lemma FallbackTwo(reply: string, locs: seq<LocationRecord>, n0: Narrative, n1: Narrative)
    requires |locs| == 2
    requires var sents := Sentences(reply);
      && Chunk(|sents|, |locs|) == 1
      && Slots(Keeps(sents, locs, 1), 0) == [0, 1]
      && FallbackRecord(sents, locs, 1, 0) == Some(n0)
      && FallbackRecord(sents, locs, 1, 1) == Some(n1)
    ensures Fallback(reply, locs) == [n0, n1]
  {
  }

  lemma KeepsTwo(locs: seq<LocationRecord>, sents: seq<string>)
    requires |locs| == 2
    requires FallbackRecord(sents, locs, 1, 0).Some? && FallbackRecord(sents, locs, 1, 1).Some?
    ensures Keeps(sents, locs, 1) == [true, true]
  {
  }

  lemma SlotsTwo()
    ensures Slots([true, true], 0) == [0, 1]
  {
    assert Slots([true, true], 2) == [];
    assert Slots([true, true], 1) == [1];
  }

  lemma ReplyNamesNothing(locs: seq<LocationRecord>, a: string, b: string)
    requires |locs| == 2 && PlainSentence(locs, a) && PlainSentence(locs, b)
    requires forall j :: 0 <= j < |locs| ==> !NamedIn(locs[j].name, a + ". " + b + ".")
    ensures Primary(a + ". " + b + ".", locs) == []
  {
    var reply := a + ". " + b + ".";
    assert reply[0] == a[0] && reply[|reply| - 1] == '.';
    assert '\n' !in reply by {
      forall i | 0 <= i < |reply| ensures reply[i] != '\n' {
        if i < |a| { assert reply[i] == a[i]; }
        else if |a| + 2 <= i < |a| + 2 + |b| { assert reply[i] == b[i - |a| - 2]; }
      }
    }
    UnnamedReply(locs, reply);
  }

  /** A one-line reply naming no location gives the line pass nothing. */
  lemma UnnamedReply(locs: seq<LocationRecord>, reply: string)
    requires Trimmed(reply) && '\n' !in reply
    requires forall j :: 0 <= j < |locs| ==> !NamedIn(locs[j].name, reply)
    ensures Primary(reply, locs) == []
  {
    StripKeeps(reply);
    SplitNoSeparator(reply, '\n');
    assert Ignored(locs, reply);
    RunIgnored(locs, [reply]);
  }

  /** `a. b.` splits at its full stops into `a`, ` b` and the empty tail. */
  lemma SentencesOfTwo(a: string, b: string)
    requires '.' !in a && '.' !in b
    ensures Sentences(a + ". " + b + ".") == [a, " " + b, ""]
  {
    var sb := " " + b;
    assert '.' !in sb by {
      forall i | 0 <= i < |sb| ensures sb[i] != '.' {
        if i > 0 { assert sb[i] == b[i - 1]; }
      }
    }
    assert a + ". " + b + "." == a + ['.'] + (sb + ['.'] + "");
    SplitAfterPiece(sb, "", '.');
    SplitAfterPiece(a, sb + ['.'] + "", '.');
  }

  /** Location `i` whose window is the single sentence `s`, stripping to plain text `t`,
      is given `t.`. */
  lemma FallbackOne(locs: seq<LocationRecord>, sents: seq<string>, i: nat, s: string, t: string)
    requires i < |locs| && i < |sents| && sents[i] == s && Strip(s) == t && PlainSentence(locs, t)
    ensures FallbackRecord(sents, locs, 1, i) == Some(Narrative(locs[i].name, t + ".", None, None))
  {
    WindowOne(sents, i);
    assert Join(".", [s]) == s;
    TidyPlain(locs, t);
    CloseOpen(t);
  }

  lemma WindowOne(sents: seq<string>, i: nat)
    requires i < |sents|
    ensures Window(sents, i, i + 1) == [sents[i]]
  {
  }

  /** Plain text passes the fallback's cleaning unchanged. */
  lemma TidyPlain(locs: seq<LocationRecord>, t: string)
    requires PlainSentence(locs, t)
    ensures Tidy(locs, t) == t
  {
    RemoveBoldKeeps(t);
    assert FirstPrefix(locs, t, 0).None?;
  }

  /** Text without a full stop is closed with one. */
  lemma CloseOpen(t: string)
    requires t != [] && '.' !in t
    ensures Close(t) == t + "."
  {
    assert t[|t| - 1] in t;
  }
}

=== FILE: text.dfy ===
/** The handful of Python `str` operations the pipeline relies on, restricted to
    ASCII: `isspace`, `lower`, `strip`/`lstrip`, `startswith`, the `in` substring
    test, `join`, `split` and `replace('**', '')`. */
module Text {

  /** `str.isspace` on the ASCII range: space, `\t`, `\n`, `\v`, `\f`, `\r` and the
      four separators `\x1c`..`\x1f`. */
  predicate IsSpace(c: char) {
    c == ' ' || c == '\t' || c == '\n' || c == '\r' || c == '\U{0B}' || c == '\U{0C}'
    || ('\U{1C}' <= c <= '\U{1F}')
  }

  function LowerChar(c: char): char {
    if 'A' <= c <= 'Z' then (c as int + 32) as char else c
  }

  /** `str.lower` on ASCII letters; every other character is kept. */
  function Lower(s: string): (r: string)
    ensures |r| == |s|
    ensures forall i :: 0 <= i < |s| ==> r[i] == LowerChar(s[i])
  {
    seq(|s|, i requires 0 <= i < |s| => LowerChar(s[i]))
  }

  lemma LowerAppend(a: string, b: string)
    ensures Lower(a + b) == Lower(a) + Lower(b)
  {
    assert forall i :: 0 <= i < |a + b| ==> Lower(a + b)[i] == (Lower(a) + Lower(b))[i];
  }

  /** Text without ASCII capitals is its own lower-case form. */
  lemma LowerKeeps(s: string)
    requires forall i :: 0 <= i < |s| ==> !('A' <= s[i] <= 'Z')
    ensures Lower(s) == s
  {
  }

  /** A character absent from `s` in both cases is absent from `Lower(s)`. */
  lemma LowerOmits(s: string, c: char)
    requires 'a' <= c <= 'z'
    requires c !in s && (c as int - 32) as char !in s
    ensures c !in Lower(s)
  {
    forall i | 0 <= i < |s| ensures Lower(s)[i] != c {
      assert s[i] in s;
    }
  }

  /** Concatenation is associative; stated for any element type so that proofs
      about sequences of strings need not compare the strings themselves. */
  lemma AppendAssoc<X>(a: seq<X>, b: seq<X>, c: seq<X>)
    ensures (a + b) + c == a + (b + c)
  {
  }

  lemma AppendEmpty<X>(a: seq<X>)
    ensures a + [] == a && [] + a == a
  {
  }

  /** `str.lstrip()`: drops the longest all-whitespace prefix. */
  function LStrip(s: string): (r: string)
    ensures |r| <= |s| && r == s[|s| - |r|..]
    ensures r == [] || !IsSpace(r[0])
    ensures forall i :: 0 <= i < |s| - |r| ==> IsSpace(s[i])
    decreases |s|
  {
    if |s| > 0 && IsSpace(s[0]) then LStrip(s[1..]) else s
  }

  /** `str.rstrip()`: drops the longest all-whitespace suffix. */
  function RStrip(s: string): (r: string)
    ensures |r| <= |s| && r == s[..|r|]
    ensures r == [] || !IsSpace(r[|r| - 1])
    ensures forall i :: |r| <= i < |s| ==> IsSpace(s[i])
    decreases |s|
  {
    if |s| > 0 && IsSpace(s[|s| - 1]) then RStrip(s[..|s| - 1]) else s
  }

  /** `sub` occurs in `s` starting at offset `i`. */
  predicate OccursAt(s: string, sub: string, i: int) {
    0 <= i <= |s| - |sub| && s[i..i + |sub|] == sub
  }

  /** `str.strip()`: a slice of `s` that neither starts nor ends with whitespace,
      empty exactly when `s` is all whitespace. That only surrounding whitespace is
      dropped is `StripSurrounded`, kept out of this contract so that the many users
      of `Strip` do not carry it. */
  function Strip(s: string): (r: string)
    ensures r == [] <==> forall i :: 0 <= i < |s| ==> IsSpace(s[i])
    ensures r == [] || (!IsSpace(r[0]) && !IsSpace(r[|r| - 1]))
    ensures exists k :: OccursAt(s, r, k)
  {
    StripOccurs(s);
    StripBlank(s);
    RStrip(LStrip(s))
  }

  /** What is left after both strips is the slice that starts where `lstrip` stopped. */
  lemma StripOccurs(s: string)
    ensures OccursAt(s, RStrip(LStrip(s)), |s| - |LStrip(s)|)
  {
    var l := LStrip(s);
    var r := RStrip(l);
    var k := |s| - |l|;
    assert l == s[k..];
    assert r == l[..|r|];
    assert s[k..k + |r|] == r;
  }

  /** Every character of `t` is whitespace. */
  predicate AllSpace(t: string) {
    forall i :: 0 <= i < |t| ==> IsSpace(t[i])
  }

  /** `strip` drops whitespace only: the stripped text is a slice of `s` with nothing
      but whitespace before it and after it. */
  lemma StripSurrounded(s: string)
    ensures exists k :: OccursAt(s, Strip(s), k) && AllSpace(s[..k]) && AllSpace(s[k + |Strip(s)|..])
  {
    var k := |s| - |LStrip(s)|;
    StripOccurs(s);
    StripHeadSpace(s);
    StripTailSpace(s);
    assert OccursAt(s, Strip(s), k) && AllSpace(s[..k]) && AllSpace(s[k + |Strip(s)|..]);
  }

  lemma StripHeadSpace(s: string)
    ensures AllSpace(s[..|s| - |LStrip(s)|])
  {
    var k := |s| - |LStrip(s)|;
    forall i | 0 <= i < k
      ensures IsSpace(s[..k][i])
    {
      assert s[..k][i] == s[i];
    }
  }

  lemma StripTailSpace(s: string)
    ensures AllSpace(s[|s| - |LStrip(s)| + |RStrip(LStrip(s))|..])
  {
    var m := |s| - |LStrip(s)| + |RStrip(LStrip(s))|;
    StripTail(s);
    forall i | 0 <= i < |s| - m
      ensures IsSpace(s[m..][i])
    {
      assert s[m..][i] == s[m + i];
    }
  }

  /** What `rstrip` drops after the `lstrip` offset is whitespace. */
  lemma StripTail(s: string)
    ensures forall i :: |s| - |LStrip(s)| + |RStrip(LStrip(s))| <= i < |s| ==> IsSpace(s[i])
  {
    var l := LStrip(s);
    var k := |s| - |l|;
    var r := RStrip(l);
    assert l == s[k..];
    forall i | k + |r| <= i < |s|
      ensures IsSpace(s[i])
    {
      assert IsSpace(l[i - k]);
      assert l[i - k] == s[i];
    }
  }

  /** Both strips together leave nothing exactly when every character is whitespace. */
  lemma StripBlank(s: string)
    ensures RStrip(LStrip(s)) == [] <==> forall i :: 0 <= i < |s| ==> IsSpace(s[i])
  {
    var l := LStrip(s);
    var r := RStrip(l);
    if r == [] {
      assert l == [];
    } else {
      assert l[0] == r[0] && !IsSpace(l[0]);
      assert s[|s| - |l|] == l[0];
    }
  }

  /** A string that `strip` leaves alone and that is not blank. */
  predicate Trimmed(s: string) {
    s != "" && !IsSpace(s[0]) && !IsSpace(s[|s| - 1])
  }

  /** The stripped text is empty or starts and ends with a non-space. */
  lemma StripEnds(s: string)
    ensures var r := Strip(s); r == [] || (!IsSpace(r[0]) && !IsSpace(r[|r| - 1]))
  {
  }

  /** A single leading space is all `strip` removes from a space and a trimmed string. */
  lemma StripLeadingSpace(s: string)
    requires Trimmed(s)
    ensures Strip(" " + s) == s
  {
    assert (" " + s)[1..] == s;
    assert LStrip(" " + s) == LStrip(s);
  }

  /** A string already free of surrounding whitespace is left alone by `strip`. */
  lemma StripKeeps(s: string)
    requires s == [] || (!IsSpace(s[0]) && !IsSpace(s[|s| - 1]))
    ensures Strip(s) == s
  {
  }

  lemma StripIdempotent(s: string)
    ensures Strip(Strip(s)) == Strip(s)
  {
    StripKeeps(Strip(s));
  }

  /** `str.lstrip(c)` for a one-character argument. */
  function LStripChar(s: string, c: char): (r: string)
    ensures |r| <= |s| && r == s[|s| - |r|..]
    ensures r == [] || r[0] != c
    ensures forall i :: 0 <= i < |s| - |r| ==> s[i] == c
    decreases |s|
  {
    if |s| > 0 && s[0] == c then LStripChar(s[1..], c) else s
  }

  predicate StartsWith(s: string, p: string) {
    |p| <= |s| && s[..|p|] == p
  }

  predicate EndsWith(s: string, p: string) {
    |p| <= |s| && s[|s| - |p|..] == p
  }

  /** Python's `sub in s`, computed by trying every start position in turn. */
  predicate Contains(s: string, sub: string)
    decreases |s|
  {
    StartsWith(s, sub) || (|s| > 0 && Contains(s[1..], sub))
  }

  /** `Contains` holds exactly when `sub` occurs at some offset of `s`. */
  lemma {:induction false} ContainsIff(s: string, sub: string)
    ensures Contains(s, sub) <==> exists i :: OccursAt(s, sub, i)
    decreases |s|
  {
    if exists i :: OccursAt(s, sub, i) {
      var i :| OccursAt(s, sub, i);
      if i > 0 {
        assert OccursAt(s[1..], sub, i - 1) by {
          assert s[1..][i - 1..i - 1 + |sub|] == s[i..i + |sub|];
        }
        ContainsIff(s[1..], sub);
      }
    }
    if |s| > 0 && Contains(s[1..], sub) {
      ContainsIff(s[1..], sub);
      var j :| OccursAt(s[1..], sub, j);
      assert OccursAt(s, sub, j + 1) by {
        assert s[1..][j..j + |sub|] == s[j + 1..j + 1 + |sub|];
      }
    }
    if StartsWith(s, sub) {
      assert OccursAt(s, sub, 0);
    }
  }

  lemma PrefixContains(s: string, p: string)
    requires StartsWith(s, p)
    ensures Contains(s, p)
  {
  }

  /** An occurrence in `b` is still an occurrence once something is put in front. */
  lemma ContainsInSuffix(a: string, b: string, sub: string)
    requires Contains(b, sub)
    ensures Contains(a + b, sub)
  {
    ContainsIff(b, sub);
    var i :| OccursAt(b, sub, i);
    assert (a + b)[|a| + i..|a| + i + |sub|] == b[i..i + |sub|];
    assert OccursAt(a + b, sub, |a| + i);
    ContainsIff(a + b, sub);
  }

  /** An occurrence in `a` is still an occurrence once something is put after it. */
  lemma ContainsInPrefix(a: string, b: string, sub: string)
    requires Contains(a, sub)
    ensures Contains(a + b, sub)
  {
    ContainsIff(a, sub);
    var i :| OccursAt(a, sub, i);
    assert (a + b)[i..i + |sub|] == a[i..i + |sub|];
    assert OccursAt(a + b, sub, i);
    ContainsIff(a + b, sub);
  }

  /** A needle holding a character the haystack lacks cannot occur in it. */
  lemma MissingCharExcludes(s: string, sub: string, c: char)
    requires c in sub && c !in s
    ensures !Contains(s, sub)
  {
    var j :| 0 <= j < |sub| && sub[j] == c;
    forall i | 0 <= i <= |s| - |sub| ensures !OccursAt(s, sub, i) {
      assert s[i..i + |sub|][j] == s[i + j];
      assert s[i + j] in s;
    }
    ContainsIff(s, sub);
  }

  /** `sep.join(parts)`. */
  function Join(sep: string, parts: seq<string>): string
    decreases |parts|
  {
    if |parts| == 0 then ""
    else if |parts| == 1 then parts[0]
    else parts[0] + sep + Join(sep, parts[1..])
  }

  /** Every part of a join occurs in the joined text. */
  lemma {:induction false} JoinContainsPart(sep: string, parts: seq<string>, i: nat)
    requires i < |parts|
    ensures Contains(Join(sep, parts), parts[i])
    decreases |parts|
  {
    if |parts| == 1 || i == 0 {
      if |parts| > 1 {
        assert Join(sep, parts) == parts[0] + (sep + Join(sep, parts[1..]));
        PrefixContains(parts[0], parts[0]);
        ContainsInPrefix(parts[0], sep + Join(sep, parts[1..]), parts[0]);
      } else {
        PrefixContains(parts[0], parts[0]);
      }
    } else {
      JoinContainsPart(sep, parts[1..], i - 1);
      assert Join(sep, parts) == (parts[0] + sep) + Join(sep, parts[1..]);
      ContainsInSuffix(parts[0] + sep, Join(sep, parts[1..]), parts[i]);
    }
  }

  lemma JoinTwo(sep: string, a: string, b: string)
    ensures Join(sep, [a, b]) == a + sep + b
  {
    assert [a, b][1..] == [b];
  }

  /** A join begins with its first part. */
  lemma JoinStartsWithFirst(sep: string, parts: seq<string>)
    requires |parts| > 0
    ensures StartsWith(Join(sep, parts), parts[0])
  {
    if |parts| > 1 {
      assert Join(sep, parts) == parts[0] + (sep + Join(sep, parts[1..]));
    }
  }

  /** A join whose last part is non-empty ends with that part's last character. */
  lemma {:induction false} JoinEndsWithLast(sep: string, parts: seq<string>)
    requires |parts| > 0 && parts[|parts| - 1] != ""
    ensures var j, last := Join(sep, parts), parts[|parts| - 1];
      j != "" && j[|j| - 1] == last[|last| - 1]
    decreases |parts|
  {
    if |parts| > 1 {
      JoinEndsWithLast(sep, parts[1..]);
      assert parts[1..][|parts[1..]| - 1] == parts[|parts| - 1];
    }
  }

  /** A prefix of a prefix is a prefix. */
  lemma StartsWithTrans(s: string, p: string, q: string)
    requires StartsWith(s, p) && StartsWith(p, q)
    ensures StartsWith(s, q)
  {
    assert s[..|q|] == s[..|p|][..|q|];
  }

  /** Joining one more part adds the separator and the part at the end. */
  lemma {:induction false} JoinSnoc(sep: string, parts: seq<string>, last: string)
    requires |parts| > 0
    ensures Join(sep, parts + [last]) == Join(sep, parts) + sep + last
    decreases |parts|
  {
    if |parts| > 1 {
      assert (parts + [last])[1..] == parts[1..] + [last];
      JoinSnoc(sep, parts[1..], last);
    } else {
      assert (parts + [last])[1..] == [last];
    }
  }

  /** A join whose first part is non-empty is non-empty. */
  lemma JoinNonEmpty(sep: string, parts: seq<string>)
    requires |parts| > 0 && parts[0] != ""
    ensures Join(sep, parts) != ""
  {
  }

  /** `s.split(c)` for a one-character separator: always at least one piece,
      and an empty string splits into `[""]`. */
  function Split(s: string, c: char): (r: seq<string>)
    ensures |r| >= 1
    decreases |s|
  {
    if |s| == 0 then [""]
    else
      var rest := Split(s[1..], c);
      if s[0] == c then [""] + rest else [[s[0]] + rest[0]] + rest[1..]
  }

  /** Joining the pieces of a split with the separator gives the text back. */
  lemma {:induction false} SplitThenJoin(s: string, c: char)
    ensures Join([c], Split(s, c)) == s
    decreases |s|
  {
    if |s| > 0 {
      var rest := Split(s[1..], c);
      SplitThenJoin(s[1..], c);
      if s[0] == c {
        assert Split(s, c) == [""] + rest;
        assert ([""] + rest)[1..] == rest;
      } else {
        var r := Split(s, c);
        assert r == [[s[0]] + rest[0]] + rest[1..];
        if |rest| == 1 {
          assert Join([c], rest) == rest[0];
        } else {
          assert r[1..] == rest[1..];
          assert Join([c], rest) == rest[0] + [c] + Join([c], rest[1..]);
        }
      }
    }
  }

  /** A piece free of the separator, followed by the separator, splits off as one piece. */
  lemma {:induction false} SplitAfterPiece(a: string, b: string, c: char)
    requires c !in a
    ensures Split(a + [c] + b, c) == [a] + Split(b, c)
    decreases |a|
  {
    if |a| == 0 {
      assert a + [c] + b == [c] + b;
      assert ([c] + b)[1..] == b;
    } else {
      SplitAfterPiece(a[1..], b, c);
      assert (a + [c] + b)[1..] == a[1..] + [c] + b;
      assert [a[0]] + a[1..] == a;
    }
  }

  /** A separator-free string is a single piece. */
  lemma {:induction false} SplitNoSeparator(a: string, c: char)
    requires c !in a
    ensures Split(a, c) == [a]
    decreases |a|
  {
    if |a| > 0 {
      SplitNoSeparator(a[1..], c);
      assert [a[0]] + a[1..] == a;
    }
  }

  /** Splitting a join of separator-free pieces gives the pieces back. */
  lemma {:induction false} JoinThenSplit(parts: seq<string>, c: char)
    requires |parts| >= 1
    requires forall i :: 0 <= i < |parts| ==> c !in parts[i]
    ensures Split(Join([c], parts), c) == parts
    decreases |parts|
  {
    if |parts| == 1 {
      SplitNoSeparator(parts[0], c);
    } else {
      JoinThenSplit(parts[1..], c);
      SplitAfterPiece(parts[0], Join([c], parts[1..]), c);
      assert [parts[0]] + parts[1..] == parts;
    }
  }

  /** `s.replace('**', '')`: occurrences of `**` are removed left to right without
      overlapping, so `***` becomes `*`. */
  function RemoveBold(s: string): (r: string)
    ensures |r| <= |s|
    decreases |s|
  {
    if |s| >= 2 && s[0] == '*' && s[1] == '*' then RemoveBold(s[2..])
    else if |s| == 0 then s
    else [s[0]] + RemoveBold(s[1..])
  }

  /** Text without asterisks has no emphasis markup to remove. */
  lemma {:induction false} RemoveBoldKeeps(s: string)
    requires '*' !in s
    ensures RemoveBold(s) == s
    decreases |s|
  {
    if |s| > 0 {
      assert s[1..] == s[1..] && '*' !in s[1..] by {
        forall k | 0 <= k < |s[1..]| ensures s[1..][k] != '*' { assert s[1..][k] == s[k + 1]; }
      }
      RemoveBoldKeeps(s[1..]);
      assert [s[0]] + s[1..] == s;
    }
  }

  /** Text without asterisks passes through unchanged in front of whatever follows. */
  lemma {:induction false} RemoveBoldPrefix(x: string, y: string)
    requires '*' !in x
    ensures RemoveBold(x + y) == x + RemoveBold(y)
    decreases |x|
  {
    if |x| > 0 {
      var s := x + y;
      assert s[0] == x[0] && s[1..] == x[1..] + y;
      assert '*' !in x[1..] by {
        forall k | 0 <= k < |x[1..]| ensures x[1..][k] != '*' { assert x[1..][k] == x[k + 1]; }
      }
      RemoveBoldPrefix(x[1..], y);
      assert [x[0]] + (x[1..] + RemoveBold(y)) == x + RemoveBold(y);
    } else {
      assert x + y == y;
    }
  }

  /** `**name**` loses both markers and keeps the name. */
  lemma BoldRemoved(name: string)
    requires '*' !in name
    ensures RemoveBold("**" + name + "**") == name
  {
    var s := "**" + name + "**";
    assert s[2..] == name + "**";
    RemoveBoldPrefix(name, "**");
    assert "**"[2..] == "";
    assert name + "" == name;
  }

  /** Decimal digits of a natural number, as `str(i)` prints a list index. */
  function Decimal(n: nat): (r: string)
    ensures |r| >= 1
    ensures forall i :: 0 <= i < |r| ==> '0' <= r[i] <= '9'
  {
    if n < 10 then [('0' as int + n) as char]
    else Decimal(n / 10) + [('0' as int + n % 10) as char]
  }
}

=== FILE: wrappers.dfy ===
/** The optional value used throughout the model in place of Python's `None`. */
module Wrappers {

  datatype Option<+T> = None | Some(value: T)
}
